=== FILE: README.md ===
# wearhouse-flow catalog core in Dafny

A model of the catalog logic in the two product pages of the wearhouse-flow back office:

- `src/pages/Produtos.tsx` (module `Catalog`) covers:
  - loading the `produtos` blob from browser storage, seeding it with four example products the first time it is empty;
  - the search and category filter;
  - the stock status (`getStatusEstoque`) and the stock badge it styles;
  - the list of category options.
- `src/pages/CadastrarProduto.tsx` (modules `Registration` and `Lote`) covers:
  - the product form and its defaults;
  - the effect that derives the SKU from category, name and the two option values;
  - `validateForm`;
  - the batch queue: `handleSubmit` appends a valid form, and `enviarTodosParaN8n` posts the whole queue to the webhook in one request.

The supporting modules model the JavaScript the pages rely on, over ASCII text:

- `Text`: `toLowerCase`, `trim`, `includes`, and `replace(/\s+/g, '-')`.
- `Numbers`: `parseInt` and `parseFloat`.
- `Sku`: the SKU template.
- `Seqs`: order-preserving filtering and de-duplication.
- `Wrappers`: `Option`.

Browser effects are values:

- The storage blob is an `Option<seq<Produto>>`. `None` is a blob that `JSON.parse` rejects, and an absent key reads as `Some([])`.
- Whether `localStorage.setItem` accepts the seeding write is a boolean parameter of `Catalog.Carregar`.
- A request's outcome is a boolean parameter.
- An asynchronous send is split into the click that starts it (`Lote.IniciarEnvio`) and the response that ends it. Between them, other page events can run (`Lote.Avancar`, `Lote.Executar`).
- The queue does not look inside forms, so `Lote` takes the page's three form operations as a parameter: the submit check, a render after an edit, and the reset form. `Registration.Pagina` instantiates them with `Validar`, `Renderizar` and `Resetar`.

Numbers are exact:

- `parseInt` yields `Option<int>`, with `None` standing for `NaN`.
- `parseFloat` yields `Numbers.Number`, which is `NaN`, a finite real, or a signed infinity.
- Every comparison with `NaN` is false, as in JavaScript.

## Behaviour worth knowing

- **Promotional price.** `validateForm` (CadastrarProduto.tsx:75-81) never reads the promotional price. No rule relates it to the sale price (`Registration.ValidarSoNomeEPrecos`).
- **Unreadable blob.** A parse failure only raises the error notice (Produtos.tsx:100-108). It neither seeds nor writes, and the page keeps the list it had, which is empty at mount (`Catalog.Carregar`, `Catalog.CarregarNaMontagem`).
- **Failed seeding write.** If `localStorage.setItem` throws while seeding (Produtos.tsx:95), `setProdutos` on line 96 is skipped and the error notice is raised. The page keeps its list and the stored empty list stays as it was, so the next load tries to seed again (`Catalog.Carregar`).
- **Stale SKU.** The SKU effect (CadastrarProduto.tsx:58-63) writes only when all four inputs are filled and never clears the SKU. Clearing one input after a SKU was derived leaves the old SKU, built from the cleared value, and the form still passes `validateForm` as before (`Registration.SkuObsoleto`).
- **Persistence.** The registration page never writes to browser storage. Accepted forms are only queued and posted (CadastrarProduto.tsx:83-113).

## Model

| member | source | states |
|---|---|---|
| `Catalog.Carregar` | src/pages/Produtos.tsx:33-113 | An empty stored list whose seeding write succeeds shows exactly the four examples and writes the same four back. If that write throws, the page's list and the blob stay as they were and the error notice is raised. A non-empty list is shown as stored and the blob is left as it was. A parse failure keeps the page's list, writes nothing and raises the error notice. The loading skeleton is off afterwards in every case. |
| `Catalog.CarregarIdempotente` | src/pages/Produtos.tsx:39-98 | Once a load over a blob that parsed has succeeded, a second load over the blob it left shows the same list, leaves the same blob and raises no notice. This holds from any page state and whatever a storage write would do. A first load that succeeded means the seeding write went through when the list was empty. The store is seeded at most once. |
| `Catalog.CarregarDeixaLojaPreenchida` | src/pages/Produtos.tsx:95-108 | A load raises the error notice iff the blob did not parse or the seeding write threw. A load that raised it changed neither the list nor the blob. After any other load, the store holds a non-empty list equal to the one shown. |
| `Catalog.CarregarNaMontagem` | src/pages/Produtos.tsx:26-109 | For the load run at mount, from the empty list with the skeleton showing, the list stays empty iff the error notice is raised. That happens iff the blob did not parse or the seeding write threw. The skeleton is off afterwards. |
| `Catalog.ExemplosSkuDerivado` | src/pages/Produtos.tsx:41-92 | Every example product's stored SKU equals the registration form's SKU derivation applied to its category, name and option values. |
| `Catalog.Filtrar` | src/pages/Produtos.tsx:116-131 | A product is listed iff the term is empty or matches the name or SKU case-insensitively, and the category is empty or equal. The result keeps the input's multiplicities and order (a subsequence), and equals the input when both filters are empty. |
| `Catalog.BuscaSemLetra` | src/pages/Produtos.tsx:120-123 | A term containing a letter that neither the lower-cased name nor the lower-cased SKU has does not match. |
| `Catalog.FiltroLeggingExemplos` | src/pages/Produtos.tsx:119-124 | On the examples, the term "legging" lists only "Legging High Waist". |
| `Catalog.FiltroShortsExemplos` | src/pages/Produtos.tsx:126-128 | On the examples, the category "shorts" lists only "Short de Corrida". |
| `Catalog.StatusDe` | src/pages/Produtos.tsx:133-140 | Each status holds exactly under its condition: infinite stock first, then a parsed 0, then a parsed value at most 10 (negatives included), then everything else, `NaN` included. Each condition is stated as an if-and-only-if, so the four are exhaustive and exclusive. |
| `Catalog.StatusPorQuantidade` | src/pages/Produtos.tsx:136-139 | For stock written as an integer n: 0 gives "Sem Estoque", n ≤ 10 gives "Estoque Baixo", and any other n gives "Em Estoque". |
| `Catalog.StatusIlegivel` | src/pages/Produtos.tsx:136-139 | Stock text without a digit parses to `NaN` and is classified as "Em Estoque". |
| `Catalog.SeloDe` | src/pages/Produtos.tsx:288-323 | The stock badge shows "Infinito" for infinite stock and otherwise the stock text exactly as stored. It has the alert icon iff the stock parses to a number at most 10. Its variant is "destructive" iff the stock parses to 0, "secondary" iff it parses to another number at most 10, and "default" otherwise, infinite stock included. |
| `Catalog.AparenciasDistintas` | src/pages/Produtos.tsx:134-139 | Two statuses give the badge the same variant and icon iff they are equal, or one is "Infinito" and the other "Em Estoque". |
| `Catalog.StatusExemplos` | src/pages/Produtos.tsx:136-139 | The examples' stock of 25, 0, 18 and 7 is classified as "Em Estoque", "Sem Estoque", "Em Estoque" and "Estoque Baixo". |
| `Catalog.Categorias` | src/pages/Produtos.tsx:170 | The options have no duplicates, and a text is an option iff it is non-empty and the category of some listed product. |
| `Catalog.CategoriasOrdem` | src/pages/Produtos.tsx:170 | The options of any prefix of the list are a prefix of the options of the whole list, which is first-appearance order. |
| `Catalog.CategoriasExemplos` | src/pages/Produtos.tsx:170 | The examples offer "camisetas", "leggings", "tops" and "shorts", in that order. |
| `Registration.Resetar` | src/pages/CadastrarProduto.tsx:69-73 | The reset form is blank, has finite stock, keeps stock at "Sede", names the options "Tamanho" and "Cor", and equals the initial form of line 51. |
| `Registration.AplicarSku` | src/pages/CadastrarProduto.tsx:58-63 | When all four dependencies are non-empty, only the SKU changes, and it becomes their derivation, free of whitespace and upper case. Otherwise the form is unchanged. The dependencies are never changed. |
| `Registration.AplicarSkuIdempotente` | src/pages/CadastrarProduto.tsx:58-63 | Running the effect twice is running it once. |
| `Registration.AplicarSkuResetado` | src/pages/CadastrarProduto.tsx:58-73 | The effect leaves the reset form alone. |
| `Registration.Renderizar` | src/pages/CadastrarProduto.tsx:58-63 | A render whose four dependencies are unchanged keeps the new form as it is. A render that changes them fires the effect when all four are filled. |
| `Registration.SkuManualPreservado` | src/pages/CadastrarProduto.tsx:63 | A SKU typed by hand survives a render that changes only the SKU. |
| `Registration.SkuManualSubstituido` | src/pages/CadastrarProduto.tsx:58-63 | Editing a dependency so that all four are filled replaces a hand-typed SKU with the derivation. |
| `Registration.SkuObsoleto` | src/pages/CadastrarProduto.tsx:58-63 | After a SKU was derived, clearing the size leaves the SKU derived from the old four inputs, though the effect no longer fires. The form's verdict is the same as before. |
| `Registration.Validar` | src/pages/CadastrarProduto.tsx:75-81 | A form is rejected iff the name is all whitespace, or the sale price or the cost price parses to a number at most 0. `NaN` rejects nothing. |
| `Registration.ValidarSoNomeEPrecos` | src/pages/CadastrarProduto.tsx:76 | The verdict depends only on the name, the sale price and the cost price. It never reads the promotional price. |
| `Registration.ValidarInteiros` | src/pages/CadastrarProduto.tsx:76 | With both prices written as integers, a form passes iff the name is not blank and both prices are positive. |
| `Registration.ValidarPrecoIlegivel` | src/pages/CadastrarProduto.tsx:76 | Prices without any digit or "I" (blank ones included) parse to `NaN` and are not caught: the verdict depends on the name alone. A price such as "-Infinity" has no digit but is caught. |
| `Registration.ValidarResetado` | src/pages/CadastrarProduto.tsx:69-81 | The freshly reset form fails validation. |
| `Registration.SubmeterFormulario` | src/pages/CadastrarProduto.tsx:83-90 | On this page a rejected submit changes nothing. An accepted one appends the form as the last queue element and resets to the initial form, whose blank fields do not fire the SKU effect. |
| `Registration.SessaoSemPerda` | src/pages/CadastrarProduto.tsx:83-113 | With the corrected ending, every run of page events from the first render keeps the session coherent. The forms accepted equal the forms delivered, in order and once each, followed by the queue. |
| `Registration.PerdaNaPagina` | src/pages/CadastrarProduto.tsx:75-90 | Any two valid forms of this page meet the conditions of `Lote.PerdaDuranteEnvio`. |
| `Lote.Submeter` | src/pages/CadastrarProduto.tsx:83-90 | A form failing validation leaves the whole state unchanged. A valid one is appended to the queue, the form is reset, and the loading flag is untouched. |
| `Lote.Avancar` | src/pages/CadastrarProduto.tsx:65-128 | An edit re-renders the form and leaves the queue and the pending request alone. A submit applies `Submeter` even while a request is pending, because the submit button is never disabled. A click while loading or on an empty queue changes nothing, because the send button is disabled then. Otherwise a click raises the loading flag and the request carries the queue. A response with no pending request changes nothing. Otherwise the response ends the request and lowers the flag. On success it delivers the carried forms: the written ending empties the queue, and the corrected one removes only the carried prefix. On failure the queue is kept. |
| `Lote.IniciarEnvio` | src/pages/CadastrarProduto.tsx:92-98 | An empty queue sends no request and changes nothing. Otherwise the loading flag goes up and the request carries the queue as it is. |
| `Lote.ConcluirEnvioComoEscrito` | src/pages/CadastrarProduto.tsx:99-112 | As written, success empties the queue, failure keeps it, and the loading flag is down afterwards. |
| `Lote.ConcluirEnvio` | src/pages/CadastrarProduto.tsx:99-112 | Corrected: success removes exactly the forms the request carried from the front of the queue, failure keeps it, and the loading flag is down afterwards. |
| `Lote.Enviar` | src/pages/CadastrarProduto.tsx:92-113 | The send run to its end with nothing in between: an empty queue is left alone with no request; otherwise success empties the queue, failure keeps it, and the loading flag is down. |
| `Lote.EnviarSemConcorrencia` | src/pages/CadastrarProduto.tsx:92-113 | With no event between click and response, the corrected ending agrees with the written one. |
| `Lote.AvancarConserva` | src/pages/CadastrarProduto.tsx:83-125 | With the corrected ending, every event keeps the invariant: the loading flag is up iff a request is pending, and the request carries a non-empty prefix of the queue. The queue before, plus what the event accepted, equals what it delivered plus the queue after. |
| `Lote.ExecutarConserva` | src/pages/CadastrarProduto.tsx:83-125 | The same balance over any run of events: nothing accepted is lost or delivered twice. |
| `Lote.PerdaDuranteEnvio` | src/pages/CadastrarProduto.tsx:99-105 | As written, the run "submit x, click send, edit and submit y, success" accepts two forms, delivers only x, and ends with an empty queue. The corrected ending keeps y queued. |
| `Sku.Normalize` | src/pages/CadastrarProduto.tsx:60 | A normalised text has no whitespace and no upper-case letter. How each whitespace run is replaced is stated by `Sku.NormalizeRun` and `Text.CollapseRun`. |
| `Sku.DeriveSku` | src/pages/CadastrarProduto.tsx:60 | A derived SKU has no whitespace and no upper-case letter. |
| `Sku.NormalizeRun` | src/pages/CadastrarProduto.tsx:60 | A word followed by a whitespace run of any length normalises to the lower-cased word, a single hyphen, then the normalised rest. |
| `Sku.NormalizeIdempotent` | src/pages/CadastrarProduto.tsx:60 | Normalising a normalised text changes nothing. |
| `Sku.NormalizeNormal` | src/pages/CadastrarProduto.tsx:60 | Lower-case text without whitespace is its own normal form. |
| `Sku.DeriveSkuParts` | src/pages/CadastrarProduto.tsx:60 | The SKU is the four fields, each normalised on its own, joined by hyphens. |
| `Sku.DeriveSkuNormalized` | src/pages/CadastrarProduto.tsx:60 | Fields that are already lower case and free of whitespace give exactly their hyphen join. |
| `Sku.DeriveSkuThreeWordName` | src/pages/CadastrarProduto.tsx:60 | A name of three single-spaced words contributes its three lower-cased words joined by hyphens. |
| `Sku.DeriveSkuExample` | src/pages/CadastrarProduto.tsx:60 | "Camisetas", "Camiseta Fitness Pro", "Preto" and "M" give "camisetas-camiseta-fitness-pro-preto-m". |
| `Text.CollapseSpacesShape` | src/pages/CadastrarProduto.tsx:60 | The whitespace replacement leaves no whitespace, adds no upper case, and never lengthens the text. |
| `Text.CollapseRun` | src/pages/CadastrarProduto.tsx:60 | A whitespace run of any length, up to a non-whitespace character or the end, becomes exactly one hyphen. |
| `Text.CollapseAppend` | src/pages/CadastrarProduto.tsx:60 | The replacement distributes over a split whose right part starts with a non-whitespace character. |
| `Text.CollapseNoSpace` | src/pages/CadastrarProduto.tsx:60 | Text without whitespace passes through the replacement unchanged. |
| `Text.LowerResult` | src/pages/CadastrarProduto.tsx:60 | Lower-casing leaves no upper-case letter, keeps the absence of whitespace, and leaves lower-case text unchanged. |
| `Text.TrimEmptyIffAllSpace` | src/pages/CadastrarProduto.tsx:76 | A text trims to empty iff it is all whitespace. |
| `Text.NotContainsByMissingChar` | src/pages/Produtos.tsx:121-122 | A search text with a character the searched text lacks is not contained in it. |
| `Numbers.ParseIntDecimal` | src/pages/Produtos.tsx:136 | `parseInt` reads every integer back from its decimal spelling. |
| `Numbers.ParseIntNoDigit` | src/pages/Produtos.tsx:136 | `parseInt` of a text without a digit is `NaN`. |
| `Numbers.ParseFloatDecimal` | src/pages/CadastrarProduto.tsx:76 | `parseFloat` reads every integer back from its decimal spelling. |
| `Numbers.ParseFloatFraction` | src/pages/CadastrarProduto.tsx:76 | `parseFloat` of "a.b", with a and b digit strings and a non-empty, is the digits of a and b over ten to the length of b. |
| `Numbers.ParseFloatNoDigit` | src/pages/CadastrarProduto.tsx:76 | `parseFloat` of a text with no digit and no "I" is `NaN`. |

## Left out

- Rendering is not modelled beyond the stock badge (`Catalog.SeloDe`): JSX, toasts, the loading skeleton's layout and the other table cells are left out. `getStatusEstoque` also computes a label for each status, but the page never renders it. The badge shows only the variant, the icon and the stock text (Produtos.tsx:320-323), so the label is left out.
- The HTTP requests are not modelled, only their outcome. This covers the URL, headers, JSON body, timestamp and `source` tag. Only success (the `fetch` resolved) or failure (it threw) is kept. The `webhookUrl` state never changes on the page.
- `reenviarParaN8n` (Produtos.tsx:142-168) is not modelled. It only posts one product and shows a toast, and changes no state.
- Browser storage and JSON are reduced to a value. The parsed blob is an `Option<seq<Produto>>`. A blob that parses to something other than an array, or to records missing fields, is not modelled. A `localStorage.getItem` that throws behaves like a parse failure and is folded into `None`.
- `handleInputChange` (CadastrarProduto.tsx:65-67) is modelled as an `Alterar` event carrying the form the input leaves. Line 118 of the page is a placeholder comment for the form's inputs, so the model allows any edited form.
- React scheduling is simplified. The SKU effect runs once, right after each render that changes one of its dependencies. State-update batching and development-mode double effects are not modelled.
- Floating point is not modelled. `parseFloat` gives an exact real: no rounding to a double, no overflow to `Infinity` and no underflow to 0. `parseInt` gives an exact integer, with no precision loss past 2^53.
- Unicode is not modelled. `toLowerCase`, `trim` and `\s` are modelled on ASCII: whitespace is space, tab, line feed, carriage return, vertical tab and form feed. Non-ASCII letters are left as they are.
- The dashboard, login, layout and routing components are not modelled. They hold mock figures, a hard-coded credential check and navigation, with no catalog logic.

## Findings

| source | as written | input that shows it | evidently intended | confidence | as-written member | corrected member |
|---|---|---|---|---|---|---|
| src/pages/CadastrarProduto.tsx:105 | After the request succeeds, `setProdutosTemp([])` empties the whole queue. The submit button stays enabled while the request is pending, so forms queued in the meantime are dropped without ever being sent. | Queue form x, click send, then fill in a valid form y and submit it before the response. The request succeeds, the queue ends empty, and y was never sent. | Remove from the queue only the forms the request carried, so y stays queued for the next send. | not executed; the run needs the form inputs that line 118 stands for | `Lote.PerdaDuranteEnvio` | `Lote.ConcluirEnvio`, with its no-loss property `Lote.ExecutarConserva` |

=== FILE: catalog.dfy ===
/**
 * The product listing page: loading the stored catalog (seeding it on first use),
 * the search and category filter, the stock badge, and the category options.
 */
module Catalog {
  import opened Wrappers
  import opened Text
  import opened Numbers
  import opened Seqs
  import opened Sku

  /** A stored product record as the listing page reads it. */
  datatype Produto = Produto(
    id: int,
    nomeProduto: string,
    categoria: string,
    precoVenda: string,
    precoPromocional: string,
    estoqueInicial: string,
    estoqueInfinito: bool,
    sku: string,
    opcao1Valor: string,
    opcao2Valor: string,
    createdAt: string)

  /** The four example records written to an empty store. */
  const Exemplos: seq<Produto> := [
    Produto(1, "Camiseta Fitness Pro", "camisetas", "89.90", "69.90", "25", false,
            "camisetas-camiseta-fitness-pro-preto-m", "M", "Preto", "2024-01-15T10:30:00.000Z"),
    Produto(2, "Legging High Waist", "leggings", "129.90", "", "0", false,
            "leggings-legging-high-waist-azul-p", "P", "Azul", "2024-01-14T15:20:00.000Z"),
    Produto(3, "Top Esportivo Basic", "tops", "59.90", "", "18", false,
            "tops-top-esportivo-basic-rosa-g", "G", "Rosa", "2024-01-13T09:45:00.000Z"),
    Produto(4, "Short de Corrida", "shorts", "79.90", "59.90", "7", false,
            "shorts-short-de-corrida-cinza-m", "M", "Cinza", "2024-01-12T14:15:00.000Z")
  ]

  /**
   * The examples carry the SKU the registration form would derive from their category,
   * name and option values.
   */
  lemma ExemplosSkuDerivado(p: Produto)
    requires p in Exemplos
    ensures p.sku == DeriveSku(p.categoria, p.nomeProduto, p.opcao2Valor, p.opcao1Valor)
  {
    if p == Exemplos[0] {
      SkuTexto0(p.sku);
      SkuExemplo(p, "Camiseta", "Fitness", "Pro", "camiseta", "fitness", "pro", "preto", "m");
    } else if p == Exemplos[1] {
      SkuTexto1(p.sku);
      SkuExemplo(p, "Legging", "High", "Waist", "legging", "high", "waist", "azul", "p");
    } else if p == Exemplos[2] {
      SkuTexto2(p.sku);
      SkuExemplo(p, "Top", "Esportivo", "Basic", "top", "esportivo", "basic", "rosa", "g");
    } else {
      SkuTexto3(p.sku);
      SkuExemplo(p, "Short", "de", "Corrida", "short", "de", "corrida", "cinza", "m");
    }
  }

  /**
   * An example's SKU from its parts: the name is three words `w1 w2 w3` with lower-case
   * forms `n1 n2 n3`, the colour and size lower-case to `l2` and `l1`, and the stored SKU
   * joins those forms with dashes after the category, which is already lower-case.
   */
  lemma SkuExemplo(p: Produto, w1: string, w2: string, w3: string,
                   n1: string, n2: string, n3: string, l2: string, l1: string)
    requires (p.nomeProduto, w1, w2, w3) in NomesDivididos
    requires (p.categoria, p.categoria) in ValoresMinusculos
    requires (w1, n1) in PrimeirasPalavras && (w2, n2) in DemaisPalavras && (w3, n3) in DemaisPalavras
    requires (p.opcao2Valor, l2) in ValoresMinusculos && (p.opcao1Valor, l1) in ValoresMinusculos
    requires p.sku == p.categoria + "-" + (n1 + "-" + n2 + "-" + n3) + "-" + l2 + "-" + l1
    ensures p.sku == DeriveSku(p.categoria, p.nomeProduto, p.opcao2Valor, p.opcao1Valor)
  {
    NomeEmPalavras(p.nomeProduto, w1, w2, w3);
    ValorMinusculo(p.categoria, p.categoria);
    PrimeiraPalavraMinuscula(w1, n1);
    DemaisPalavraMinuscula(w2, n2);
    DemaisPalavraMinuscula(w3, n3);
    ValorMinusculo(p.opcao2Valor, l2);
    ValorMinusculo(p.opcao1Valor, l1);
    DeriveSkuThreeWordName(p.categoria, w1, w2, w3, p.opcao2Valor, p.opcao1Valor);
  }

  /** Each example name with its three words. */
  const NomesDivididos: set<(string, string, string, string)> := {
    ("Camiseta Fitness Pro", "Camiseta", "Fitness", "Pro"),
    ("Legging High Waist", "Legging", "High", "Waist"),
    ("Top Esportivo Basic", "Top", "Esportivo", "Basic"),
    ("Short de Corrida", "Short", "de", "Corrida")
  }

  lemma NomeEmPalavras(nome: string, w1: string, w2: string, w3: string)
    requires (nome, w1, w2, w3) in NomesDivididos
    ensures nome == w1 + " " + w2 + " " + w3 && w2 != [] && w3 != []
  {
    if w1 == "Camiseta" {
      assert nome == "Camiseta Fitness Pro";
    } else if w1 == "Legging" {
      assert nome == "Legging High Waist";
    } else if w1 == "Top" {
      assert nome == "Top Esportivo Basic";
    } else {
      assert nome == "Short de Corrida";
    }
  }

  /** The first words of the example names, each with its lower-case form. */
  const PrimeirasPalavras: set<(string, string)> := {
    ("Camiseta", "camiseta"), ("Legging", "legging"), ("Top", "top"), ("Short", "short")
  }

  lemma PrimeiraPalavraMinuscula(s: string, l: string)
    requires (s, l) in PrimeirasPalavras
    ensures NoSpace(s) && Lower(s) == l
  {
  }

  /** The second and third words of the example names, each with its lower-case form. */
  const DemaisPalavras: set<(string, string)> := {
    ("Fitness", "fitness"), ("Pro", "pro"), ("High", "high"), ("Waist", "waist"),
    ("Esportivo", "esportivo"), ("Basic", "basic"), ("de", "de"), ("Corrida", "corrida")
  }

  lemma DemaisPalavraMinuscula(s: string, l: string)
    requires (s, l) in DemaisPalavras
    ensures NoSpace(s) && Lower(s) == l
  {
  }

  /** The examples' categories, colours and sizes, each with its lower-case form. */
  const ValoresMinusculos: set<(string, string)> := {
    ("camisetas", "camisetas"), ("leggings", "leggings"), ("tops", "tops"), ("shorts", "shorts"),
    ("Preto", "preto"), ("Azul", "azul"), ("Rosa", "rosa"), ("Cinza", "cinza"),
    ("M", "m"), ("P", "p"), ("G", "g")
  }

  lemma ValorMinusculo(s: string, l: string)
    requires (s, l) in ValoresMinusculos
    ensures NoSpace(s) && Lower(s) == l
  {
  }

  // The stored SKU texts, cut at their dashes. One lemma per text keeps each literal
  // comparison in a proof obligation of its own.

  lemma SkuTexto0(sku: string)
    requires sku == "camisetas-camiseta-fitness-pro-preto-m"
    ensures sku == "camisetas" + "-" + ("camiseta" + "-" + "fitness" + "-" + "pro") + "-" + "preto" + "-" + "m"
  {
  }

  lemma SkuTexto1(sku: string)
    requires sku == "leggings-legging-high-waist-azul-p"
    ensures sku == "leggings" + "-" + ("legging" + "-" + "high" + "-" + "waist") + "-" + "azul" + "-" + "p"
  {
  }

  lemma SkuTexto2(sku: string)
    requires sku == "tops-top-esportivo-basic-rosa-g"
    ensures sku == "tops" + "-" + ("top" + "-" + "esportivo" + "-" + "basic") + "-" + "rosa" + "-" + "g"
  {
  }

  lemma SkuTexto3(sku: string)
    requires sku == "shorts-short-de-corrida-cinza-m"
    ensures sku == "shorts" + "-" + ("short" + "-" + "de" + "-" + "corrida") + "-" + "cinza" + "-" + "m"
  {
  }

  // ---------------------------------------------------------------------------
  // Loading
  // ---------------------------------------------------------------------------

  /** The state the page keeps: the loaded list and whether the loading skeleton shows. */
  datatype Pagina = Pagina(produtos: seq<Produto>, carregando: bool)

  /** Before the load effect runs: no products, skeleton showing. */
  const PaginaInicial := Pagina([], true)

  /**
   * The outcome of one load: the page state, the `produtos` blob afterwards, and
   * whether the load-error notice was raised.
   */
  datatype Carga = Carga(pagina: Pagina, armazenado: Option<seq<Produto>>, erro: bool)

  /**
   * `carregarProdutos`. The blob is given already parsed: `Some(list)` is what
   * `JSON.parse` returned (an absent key reads as the empty list), `None` is a blob the
   * parse rejects. `gravou` says whether `localStorage.setItem` accepts the seeding
   * write; it matters only when the examples are seeded. An empty list is replaced by
   * the examples, which are also written back; a non-empty list is shown as it is. A
   * failed parse, or a seeding write that throws, raises the error notice and leaves
   * both the page's list and the blob alone. The skeleton is hidden in every case.
   */
  function Carregar(pagina: Pagina, armazenado: Option<seq<Produto>>, gravou: bool): (r: Carga)
    ensures !r.pagina.carregando
    ensures armazenado == Some([]) && gravou ==>
      r.pagina.produtos == Exemplos && r.armazenado == Some(Exemplos) && !r.erro
    ensures armazenado == Some([]) && !gravou ==>
      r.pagina.produtos == pagina.produtos && r.armazenado == armazenado && r.erro
    ensures armazenado.Some? && armazenado.value != [] ==>
      r.pagina.produtos == armazenado.value && r.armazenado == armazenado && !r.erro
    ensures armazenado.None? ==>
      r.pagina.produtos == pagina.produtos && r.armazenado == armazenado && r.erro
  {
    match armazenado
    case None => Carga(pagina.(carregando := false), armazenado, true)
    case Some(salvos) =>
      if |salvos| == 0 then
        if gravou then Carga(Pagina(Exemplos, false), Some(Exemplos), false)
        else Carga(pagina.(carregando := false), armazenado, true)
      else Carga(Pagina(salvos, false), armazenado, false)
  }

  /**
   * Loading is idempotent: once a load over a blob that parsed has succeeded (for an
   * empty list, its seeding write went through), a second load from any page state over
   * the blob it left shows the same list and leaves the same blob, whatever the storage
   * would do with a write. So the store is seeded at most once.
   */
  lemma CarregarIdempotente(pagina: Pagina, outra: Pagina, armazenado: Option<seq<Produto>>,
                            gravou: bool, gravouDepois: bool)
    requires armazenado.Some? && (armazenado.value == [] ==> gravou)
    ensures var primeira := Carregar(pagina, armazenado, gravou);
            var segunda := Carregar(outra, primeira.armazenado, gravouDepois);
            segunda.pagina == primeira.pagina && segunda.armazenado == primeira.armazenado
            && !segunda.erro
  {
  }

  /**
   * After any load that raised no error notice, the store holds a non-empty list equal
   * to the one shown; a load that did raise it changed neither the list nor the blob.
   */
  lemma CarregarDeixaLojaPreenchida(pagina: Pagina, armazenado: Option<seq<Produto>>, gravou: bool)
    ensures var c := Carregar(pagina, armazenado, gravou);
            !c.erro ==> c.armazenado == Some(c.pagina.produtos) && c.pagina.produtos != []
    ensures var c := Carregar(pagina, armazenado, gravou);
            c.erro <==> armazenado.None? || (armazenado == Some([]) && !gravou)
    ensures var c := Carregar(pagina, armazenado, gravou);
            c.erro ==> c.pagina.produtos == pagina.produtos && c.armazenado == armazenado
  {
  }

  /**
   * The load the page runs at mount: the list stays empty exactly when the error notice
   * is raised (a blob that does not parse, or a seeding write that throws), and the
   * skeleton goes off either way.
   */
  lemma CarregarNaMontagem(armazenado: Option<seq<Produto>>, gravou: bool)
    ensures var c := Carregar(PaginaInicial, armazenado, gravou);
            !c.pagina.carregando && (c.pagina.produtos == [] <==> c.erro)
  {
  }

  // ---------------------------------------------------------------------------
  // Search and category filter
  // ---------------------------------------------------------------------------

  /** The search box matches case-insensitively in the name or in the SKU. */
  predicate BuscaCorresponde(p: Produto, termo: string) {
    Contains(Lower(p.nomeProduto), Lower(termo)) || Contains(Lower(p.sku), Lower(termo))
  }

  /** Whether a product is listed under the current search term and category: both must admit it. */
  predicate Visivel(p: Produto, termo: string, categoria: string) {
    && (termo == [] || BuscaCorresponde(p, termo))
    && (categoria == [] || p.categoria == categoria)
  }

  /**
   * The filter effect: the search filter runs when the term is non-empty, then the
   * category filter when a category is chosen. The result lists exactly the visible
   * products, each as often as in the input and in the input's order.
   */
  function Filtrar(produtos: seq<Produto>, termo: string, categoria: string): (r: seq<Produto>)
    ensures forall p :: p in r <==> p in produtos && Visivel(p, termo, categoria)
    ensures forall p :: multiset(r)[p] == if Visivel(p, termo, categoria) then multiset(produtos)[p] else 0
    ensures IsSubsequence(r, produtos)
    ensures termo == [] && categoria == [] ==> r == produtos
  {
    var porTermo := if termo != [] then Keep(produtos, p => BuscaCorresponde(p, termo)) else produtos;
    var porCategoria := if categoria != [] then Keep(porTermo, (p: Produto) => p.categoria == categoria) else porTermo;
    FiltrarCorreto(produtos, termo, categoria, porTermo, porCategoria);
    porCategoria
  }

  lemma FiltrarCorreto(produtos: seq<Produto>, termo: string, categoria: string,
                       porTermo: seq<Produto>, porCategoria: seq<Produto>)
    requires porTermo == if termo != [] then Keep(produtos, p => BuscaCorresponde(p, termo)) else produtos
    requires porCategoria == if categoria != [] then Keep(porTermo, (p: Produto) => p.categoria == categoria) else porTermo
    ensures forall p :: multiset(porCategoria)[p] == if Visivel(p, termo, categoria) then multiset(produtos)[p] else 0
    ensures IsSubsequence(porCategoria, produtos)
  {
    forall p: Produto
      ensures multiset(porCategoria)[p] == if Visivel(p, termo, categoria) then multiset(produtos)[p] else 0
    {
      if termo != [] {
        KeepCount(produtos, q => BuscaCorresponde(q, termo), p);
      }
      if categoria != [] {
        KeepCount(porTermo, (q: Produto) => q.categoria == categoria, p);
      }
    }
    if termo != [] {
      KeepIsSubsequence(produtos, q => BuscaCorresponde(q, termo));
    } else {
      SubsequenceReflexive(produtos);
    }
    if categoria != [] {
      KeepIsSubsequence(porTermo, (q: Produto) => q.categoria == categoria);
      SubsequenceTransitive(porCategoria, porTermo, produtos);
    }
  }

  /** A search term with a letter that neither the name nor the SKU has does not match. */
  lemma BuscaSemLetra(p: Produto, termo: string, c: char)
    requires c in Lower(termo) && c !in Lower(p.nomeProduto) && c !in Lower(p.sku)
    ensures !BuscaCorresponde(p, termo)
  {
    NotContainsByMissingChar(Lower(p.nomeProduto), Lower(termo), c);
    NotContainsByMissingChar(Lower(p.sku), Lower(termo), c);
  }

  /** A product with no `l` in either case in its name or SKU does not match "legging". */
  lemma BuscaSemL(p: Produto, termo: string)
    requires termo == "legging"
    requires 'l' !in Lower(p.nomeProduto) && 'l' !in Lower(p.sku)
    ensures !BuscaCorresponde(p, termo)
  {
    assert Lower(termo) == "legging";
    BuscaSemLetra(p, termo, 'l');
  }

  /** On the examples, searching for "legging" lists only the High Waist legging. */
  lemma FiltroLeggingExemplos()
    ensures Filtrar(Exemplos, "legging", "") == [Exemplos[1]]
  {
    var termo := "legging";
    SemL0(Exemplos[0].nomeProduto);
    SemL0(Exemplos[0].sku);
    BuscaSemL(Exemplos[0], termo);
    BuscaLegging1(Exemplos[1], termo);
    SemL2(Exemplos[2].nomeProduto);
    SemL2(Exemplos[2].sku);
    BuscaSemL(Exemplos[2], termo);
    SemL3(Exemplos[3].nomeProduto);
    SemL3(Exemplos[3].sku);
    BuscaSemL(Exemplos[3], termo);
    KeepSingle(Exemplos, p => BuscaCorresponde(p, termo), 1);
  }

  lemma BuscaLegging1(p: Produto, termo: string)
    requires p == Exemplos[1] && termo == "legging"
    ensures BuscaCorresponde(p, termo)
  {
    assert Lower(termo) == "legging";
    assert Lower(p.nomeProduto) == "legging high waist";
    ContainsPrefix(Lower(p.nomeProduto), Lower(termo));
  }

  // The names and SKUs of the other three examples have no `l` in either case. One lemma
  // per example keeps each literal scan in a proof obligation of its own.

  lemma SemL0(s: string)
    requires s in {"Camiseta Fitness Pro", "camisetas-camiseta-fitness-pro-preto-m"}
    ensures 'l' !in Lower(s)
  {
    LowerMissing(s, 'l');
  }

  lemma SemL2(s: string)
    requires s in {"Top Esportivo Basic", "tops-top-esportivo-basic-rosa-g"}
    ensures 'l' !in Lower(s)
  {
    LowerMissing(s, 'l');
  }

  lemma SemL3(s: string)
    requires s in {"Short de Corrida", "shorts-short-de-corrida-cinza-m"}
    ensures 'l' !in Lower(s)
  {
    LowerMissing(s, 'l');
  }

  /** On the examples, choosing the category "shorts" lists only the running short. */
  lemma FiltroShortsExemplos()
    ensures Filtrar(Exemplos, "", "shorts") == [Exemplos[3]]
  {
    var categoria := "shorts";
    KeepSingle(Exemplos, (p: Produto) => p.categoria == categoria, 3);
  }

  // ---------------------------------------------------------------------------
  // Stock badge
  // ---------------------------------------------------------------------------

  /** The lucide icons the stock badge can carry. */
  datatype Icone = CheckCircle | AlertCircle

  /**
   * The four results of `getStatusEstoque`. Each also has a label, which the page
   * computes but never renders; only the variant and the icon reach the badge.
   */
  datatype StatusEstoque = Infinito | SemEstoque | EstoqueBaixo | EmEstoque {
    function Variante(): string {
      match this
      case Infinito => "default"
      case SemEstoque => "destructive"
      case EstoqueBaixo => "secondary"
      case EmEstoque => "default"
    }

    function Icone(): Icone {
      match this
      case Infinito => CheckCircle
      case SemEstoque => AlertCircle
      case EstoqueBaixo => AlertCircle
      case EmEstoque => CheckCircle
    }
  }

  /** What the stock column shows for a product: the badge's variant, its icon and its text. */
  datatype Selo = Selo(variante: string, icone: Icone, texto: string)

  /** JavaScript's `n === k` for a parsed integer; `NaN` equals nothing. */
  predicate IgualA(n: Option<int>, k: int) {
    n.Some? && n.value == k
  }

  /** JavaScript's `n <= k` for a parsed integer; `NaN` compares false. */
  predicate NoMaximo(n: Option<int>, k: int) {
    n.Some? && n.value <= k
  }

  /**
   * `getStatusEstoque`: infinite stock first, whatever the stock text says; then the
   * stock text read with `parseInt` is 0, at most 10 (negatives included), or anything
   * else, unreadable text included.
   */
  function StatusDe(p: Produto): (r: StatusEstoque)
    ensures r == Infinito <==> p.estoqueInfinito
    ensures r == SemEstoque <==> !p.estoqueInfinito && ParseInt(p.estoqueInicial) == Some(0)
    ensures r == EstoqueBaixo <==>
      !p.estoqueInfinito && ParseInt(p.estoqueInicial).Some? && ParseInt(p.estoqueInicial).value != 0
      && ParseInt(p.estoqueInicial).value <= 10
    ensures r == EmEstoque <==>
      !p.estoqueInfinito && (ParseInt(p.estoqueInicial).None? || ParseInt(p.estoqueInicial).value > 10)
  {
    if p.estoqueInfinito then Infinito
    else
      var estoque := ParseInt(p.estoqueInicial);
      if IgualA(estoque, 0) then SemEstoque
      else if NoMaximo(estoque, 10) then EstoqueBaixo
      else EmEstoque
  }

  /** For a stock written as a whole number the status follows the number. */
  lemma StatusPorQuantidade(p: Produto, n: int)
    requires !p.estoqueInfinito && p.estoqueInicial == IntToDecimal(n)
    ensures StatusDe(p) == if n == 0 then SemEstoque else if n <= 10 then EstoqueBaixo else EmEstoque
  {
    ParseIntDecimal(n);
  }

  /** A stock text with no digit reads as `NaN`, which is neither 0 nor at most 10. */
  lemma StatusIlegivel(p: Produto)
    requires !p.estoqueInfinito
    requires forall i :: 0 <= i < |p.estoqueInicial| ==> !IsDigit(p.estoqueInicial[i])
    ensures StatusDe(p) == EmEstoque
  {
    ParseIntNoDigit(p.estoqueInicial);
  }

  /**
   * The stock cell of a table row: the variant and icon of the product's status, and
   * the text "Infinito" for infinite stock or else the stock text exactly as stored.
   */
  function SeloDe(p: Produto): (r: Selo)
    ensures r.texto == if p.estoqueInfinito then "Infinito" else p.estoqueInicial
    ensures r.icone == AlertCircle <==>
      !p.estoqueInfinito && ParseInt(p.estoqueInicial).Some? && ParseInt(p.estoqueInicial).value <= 10
    ensures r.variante == "destructive" <==> !p.estoqueInfinito && ParseInt(p.estoqueInicial) == Some(0)
    ensures r.variante == "secondary" <==>
      !p.estoqueInfinito && ParseInt(p.estoqueInicial).Some? && ParseInt(p.estoqueInicial).value != 0
      && ParseInt(p.estoqueInicial).value <= 10
    ensures r.variante == "default" <==> r.icone == CheckCircle
  {
    var status := StatusDe(p);
    Selo(status.Variante(), status.Icone(), if p.estoqueInfinito then "Infinito" else p.estoqueInicial)
  }

  /**
   * The badge's look tells the statuses apart except for two: infinite stock and
   * ordinary stock share the default variant and the check icon.
   */
  lemma AparenciasDistintas(a: StatusEstoque, b: StatusEstoque)
    ensures (a.Variante(), a.Icone()) == (b.Variante(), b.Icone()) <==>
      a == b || ({a, b} == {Infinito, EmEstoque})
  {
  }

  /** The examples' statuses: 25 and 18 in stock, 0 out of stock, 7 running low. */
  lemma StatusExemplos()
    ensures StatusDe(Exemplos[0]) == EmEstoque && StatusDe(Exemplos[1]) == SemEstoque
    ensures StatusDe(Exemplos[2]) == EmEstoque && StatusDe(Exemplos[3]) == EstoqueBaixo
  {
    StatusExemplo(Exemplos[0], 25);
    StatusExemplo(Exemplos[1], 0);
    StatusExemplo(Exemplos[2], 18);
    StatusExemplo(Exemplos[3], 7);
  }

  lemma StatusExemplo(p: Produto, n: int)
    requires (p, n) in {(Exemplos[0], 25), (Exemplos[1], 0), (Exemplos[2], 18), (Exemplos[3], 7)}
    ensures StatusDe(p) == if n == 0 then SemEstoque else if n <= 10 then EstoqueBaixo else EmEstoque
  {
    EstoqueExemplo(p.estoqueInicial, n);
    StatusPorQuantidade(p, n);
  }

  lemma EstoqueExemplo(s: string, n: int)
    requires (s, n) in {("25", 25), ("0", 0), ("18", 18), ("7", 7)}
    ensures s == IntToDecimal(n)
  {
  }

  // ---------------------------------------------------------------------------
  // Category options
  // ---------------------------------------------------------------------------

  /** `produtos.map(p => p.categoria)`. */
  function CategoriasDe(produtos: seq<Produto>): (r: seq<string>)
    ensures |r| == |produtos|
    ensures forall i :: 0 <= i < |produtos| ==> r[i] == produtos[i].categoria
  {
    seq(|produtos|, i requires 0 <= i < |produtos| => produtos[i].categoria)
  }

  /**
   * `Array.from(new Set(produtos.map(p => p.categoria))).filter(Boolean)`: each non-empty
   * category once, in the order of first appearance.
   */
  function Categorias(produtos: seq<Produto>): (r: seq<string>)
    ensures NoDuplicates(r)
    ensures forall c :: c in r <==> c != [] && c in CategoriasDe(produtos)
  {
    var d := Distinct(CategoriasDe(produtos));
    KeepNoDuplicates(d, c => c != []);
    Keep(d, c => c != [])
  }

  /**
   * First-appearance order: the options of any prefix of the list are a prefix of the
   * options of the whole list, so a category never moves ahead of one seen before it.
   */
  lemma CategoriasOrdem(produtos: seq<Produto>, k: nat)
    requires k <= |produtos|
    ensures Categorias(produtos[..k]) <= Categorias(produtos)
  {
    var cs := CategoriasDe(produtos);
    assert CategoriasDe(produtos[..k]) == cs[..k];
    DistinctPrefix(cs, k);
    KeepPrefix(Distinct(cs[..k]), Distinct(cs), c => c != []);
  }

  /** The examples offer their four categories, in the order the list shows them. */
  lemma CategoriasExemplos()
    ensures Categorias(Exemplos) == ["camisetas", "leggings", "tops", "shorts"]
  {
    var cs := CategoriasDe(Exemplos);
    assert cs == ["camisetas", "leggings", "tops", "shorts"];
    DistinctOfDistinct(cs);
    KeepAll(cs, c => c != []);
  }
}

=== FILE: lote.dfy ===
/**
 * The batch queue of the registration page: accepted forms wait in a queue and are
 * sent to the webhook together in one request. The queue does not look inside a form,
 * so the form type is a parameter here, and the three things the page does to forms
 * (validate one, re-render after an edit, and produce the blank form) are given as
 * `Formularios`. The request's outcome is a parameter; a send is split into the click
 * that starts it and the response that ends it, so that other events can happen in between.
 */
module Lote {
  import opened Wrappers

  /** What the page does to its forms: the submit check, a render after an edit, the reset form. */
  datatype Formularios<!T> = Formularios(valida: T -> bool, renderiza: (T, T) -> T, vazio: T)

  /** The page's state: the form being filled in, the queue (`produtosTemp`) and `isLoading`. */
  datatype Cadastro<T> = Cadastro(form: T, fila: seq<T>, enviando: bool)

  /**
   * `handleSubmit`: a form that fails validation changes nothing; one that passes is
   * appended to the queue as it stands and the form is reset.
   */
  function Submeter<T>(ops: Formularios<T>, s: Cadastro<T>): (r: Cadastro<T>)
    ensures !ops.valida(s.form) ==> r == s
    ensures ops.valida(s.form) ==>
      r.fila == s.fila + [s.form] && r.form == ops.vazio && r.enviando == s.enviando
  {
    if !ops.valida(s.form) then s
    else Cadastro(ops.vazio, s.fila + [s.form], s.enviando)
  }

  /**
   * The click on "send": an empty queue sends nothing and changes nothing; otherwise
   * the loading flag is raised and the request carries the queue as it is now.
   */
  function IniciarEnvio<T>(s: Cadastro<T>): (r: (Cadastro<T>, Option<seq<T>>))
    ensures s.fila == [] ==> r.0 == s && r.1 == None
    ensures s.fila != [] ==> r.0 == s.(enviando := true) && r.1 == Some(s.fila)
  {
    if |s.fila| == 0 then (s, None)
    else (s.(enviando := true), Some(s.fila))
  }

  /**
   * The end of the request as the page is written: success empties the whole queue,
   * whatever was added while the request was pending; failure keeps it. The loading
   * flag drops in both cases.
   */
  function ConcluirEnvioComoEscrito<T>(s: Cadastro<T>, sucesso: bool): (r: Cadastro<T>)
    ensures !r.enviando && r.form == s.form
    ensures sucesso ==> r.fila == []
    ensures !sucesso ==> r.fila == s.fila
  {
    if sucesso then s.(fila := [], enviando := false)
    else s.(enviando := false)
  }

  /**
   * The end of the request as intended: success removes from the front of the queue
   * as many forms as the request carried, so forms queued in the meantime stay;
   * failure keeps the queue. The loading flag drops in both cases.
   */
  function ConcluirEnvio<T(==)>(s: Cadastro<T>, lote: seq<T>, sucesso: bool): (r: Cadastro<T>)
    ensures !r.enviando && r.form == s.form
    ensures sucesso && lote <= s.fila ==> lote + r.fila == s.fila
    ensures !sucesso ==> r.fila == s.fila
  {
    if sucesso && |lote| <= |s.fila| then
      assert lote <= s.fila ==> lote + s.fila[|lote|..] == s.fila;
      s.(fila := s.fila[|lote|..], enviando := false)
    else if sucesso then s.(fila := [], enviando := false)
    else s.(enviando := false)
  }

  /**
   * `enviarTodosParaN8n` run to its end with nothing happening in between: an empty
   * queue is left alone with no request; otherwise success empties the queue, failure
   * keeps it, and the loading flag is down afterwards.
   */
  function Enviar<T>(s: Cadastro<T>, sucesso: bool): (r: Cadastro<T>)
    ensures s.fila == [] ==> r == s
    ensures s.fila != [] ==> !r.enviando && r.form == s.form
    ensures s.fila != [] && sucesso ==> r.fila == []
    ensures s.fila != [] && !sucesso ==> r.fila == s.fila
  {
    var (iniciado, pedido) := IniciarEnvio(s);
    if pedido.None? then iniciado else ConcluirEnvioComoEscrito(iniciado, sucesso)
  }

  /** Without anything happening during the request, the intended ending agrees with the written one. */
  lemma EnviarSemConcorrencia<T>(s: Cadastro<T>, sucesso: bool)
    requires s.fila != []
    ensures ConcluirEnvio(IniciarEnvio(s).0, s.fila, sucesso) == Enviar(s, sucesso)
  {
  }

  // ---------------------------------------------------------------------------
  // Sessions: interleaving the send with other events
  // ---------------------------------------------------------------------------

  /** Which ending of a request a session uses. */
  datatype Versao = ComoEscrito | Corrigido

  /** The page state plus the queue snapshot carried by the pending request, if any. */
  datatype Sessao<T> = Sessao(cadastro: Cadastro<T>, pedido: Option<seq<T>>)

  /**
   * What can happen on the page: editing the form (the form as the input handler
   * leaves it), submitting it, clicking the send button, and the pending request answering.
   */
  datatype Evento<T> = Alterar(novo: T) | Submissao | Clique | Resposta(sucesso: bool)

  /** One step's outcome: the new session, the forms it queued, and the forms it delivered. */
  datatype Passo<T> = Passo(depois: Sessao<T>, aceitos: seq<T>, entregues: seq<T>)

  /**
   * One event. An edit re-renders the form; a submission goes through `Submeter`; the
   * send button is disabled while a request is pending or the queue is empty, so such
   * clicks change nothing; a response only arrives for a pending request, and ends it
   * with the given version's ending.
   */
  function Avancar<T(==)>(ops: Formularios<T>, v: Versao, s: Sessao<T>, e: Evento<T>): (r: Passo<T>)
    ensures e.Alterar? ==>
      && r.depois.cadastro == s.cadastro.(form := ops.renderiza(s.cadastro.form, e.novo))
      && r.depois.pedido == s.pedido && r.aceitos == [] && r.entregues == []
    ensures e.Submissao? ==>
      && r.depois.cadastro == Submeter(ops, s.cadastro) && r.depois.pedido == s.pedido
      && (ops.valida(s.cadastro.form) ==> r.aceitos == [s.cadastro.form])
      && (!ops.valida(s.cadastro.form) ==> r.aceitos == []) && r.entregues == []
    ensures e.Clique? && (s.cadastro.enviando || s.cadastro.fila == []) ==> r == Passo(s, [], [])
    ensures e.Clique? && !s.cadastro.enviando && s.pedido.None? && s.cadastro.fila != [] ==>
      && r.depois.cadastro == s.cadastro.(enviando := true)
      && r.depois.pedido == Some(s.cadastro.fila) && r.aceitos == [] && r.entregues == []
    ensures e.Resposta? && s.pedido.None? ==> r == Passo(s, [], [])
    ensures e.Resposta? && s.pedido.Some? ==>
      && r.depois.pedido.None? && !r.depois.cadastro.enviando
      && r.depois.cadastro.form == s.cadastro.form && r.aceitos == []
      && r.entregues == (if e.sucesso then s.pedido.value else [])
    ensures e.Resposta? && s.pedido.Some? && !e.sucesso ==> r.depois.cadastro.fila == s.cadastro.fila
    ensures e.Resposta? && s.pedido.Some? && e.sucesso && v == ComoEscrito ==> r.depois.cadastro.fila == []
    ensures e.Resposta? && s.pedido.Some? && e.sucesso && v == Corrigido && s.pedido.value <= s.cadastro.fila ==>
      s.pedido.value + r.depois.cadastro.fila == s.cadastro.fila
  {
    var c := s.cadastro;
    match e
    case Alterar(novo) =>
      Passo(Sessao(c.(form := ops.renderiza(c.form, novo)), s.pedido), [], [])
    case Submissao =>
      Passo(Sessao(Submeter(ops, c), s.pedido), if ops.valida(c.form) then [c.form] else [], [])
    case Clique =>
      if c.enviando || s.pedido.Some? || c.fila == [] then Passo(s, [], [])
      else Passo(Sessao(IniciarEnvio(c).0, IniciarEnvio(c).1), [], [])
    case Resposta(sucesso) =>
      match s.pedido
      case None => Passo(s, [], [])
      case Some(lote) =>
        var d := if v == ComoEscrito then ConcluirEnvioComoEscrito(c, sucesso)
                 else ConcluirEnvio(c, lote, sucesso);
        Passo(Sessao(d, None), [], if sucesso then lote else [])
  }

  /** A run of events from a session, with everything queued and delivered along the way. */
  function Executar<T(==)>(ops: Formularios<T>, v: Versao, s: Sessao<T>, es: seq<Evento<T>>): Passo<T>
    decreases |es|
  {
    if es == [] then Passo(s, [], [])
    else
      var p := Avancar(ops, v, s, es[0]);
      Seguido(p, Executar(ops, v, p.depois, es[1..]))
  }

  /** One step followed by a run from where it ended. */
  function Seguido<T>(p: Passo<T>, q: Passo<T>): Passo<T> {
    Passo(q.depois, p.aceitos + q.aceitos, p.entregues + q.entregues)
  }

  /**
   * The session invariant: the loading flag is up exactly while a request is pending,
   * and a pending request carries a non-empty prefix of the queue.
   */
  predicate Coerente<T(==)>(s: Sessao<T>) {
    && (s.cadastro.enviando <==> s.pedido.Some?)
    && (s.pedido.Some? ==> s.pedido.value != [] && s.pedido.value <= s.cadastro.fila)
  }

  /**
   * With the intended ending every step keeps the invariant and loses nothing: the
   * queue before plus what the step queued is what it delivered followed by the queue after.
   */
  lemma AvancarConserva<T>(ops: Formularios<T>, s: Sessao<T>, e: Evento<T>)
    requires Coerente(s)
    ensures var p := Avancar(ops, Corrigido, s, e);
            Coerente(p.depois) && s.cadastro.fila + p.aceitos == p.entregues + p.depois.cadastro.fila
  {
  }

  /**
   * With the intended ending no form is ever lost or sent twice: over any run, the
   * queue before followed by every form queued equals every form delivered, in order,
   * followed by the queue after.
   */
  lemma {:induction false} ExecutarConserva<T>(ops: Formularios<T>, s: Sessao<T>, es: seq<Evento<T>>)
    requires Coerente(s)
    ensures var r := Executar(ops, Corrigido, s, es);
            Coerente(r.depois) && s.cadastro.fila + r.aceitos == r.entregues + r.depois.cadastro.fila
    decreases |es|
  {
    if es != [] {
      var p := Avancar(ops, Corrigido, s, es[0]);
      AvancarConserva(ops, s, es[0]);
      ExecutarConserva(ops, p.depois, es[1..]);
      var q := Executar(ops, Corrigido, p.depois, es[1..]);
      assert Executar(ops, Corrigido, s, es) == Seguido(p, q);
      Encadeia(s.cadastro.fila, p.aceitos, q.aceitos, p.entregues, q.entregues,
               p.depois.cadastro.fila, q.depois.cadastro.fila);
    }
  }

  /** Two balanced steps compose: what came in on the left equals what went out on the right. */
  lemma Encadeia<T>(antes: seq<T>, a1: seq<T>, a2: seq<T>, e1: seq<T>, e2: seq<T>, meio: seq<T>, depois: seq<T>)
    requires antes + a1 == e1 + meio && meio + a2 == e2 + depois
    ensures antes + (a1 + a2) == (e1 + e2) + depois
  {
    calc {
      antes + (a1 + a2);
      (antes + a1) + a2;
      (e1 + meio) + a2;
      e1 + (meio + a2);
      e1 + (e2 + depois);
      (e1 + e2) + depois;
    }
  }

  /** Running one event and then the rest is the step followed by the run from where it ended. */
  lemma ExecutarCons<T>(ops: Formularios<T>, v: Versao, s: Sessao<T>, e: Evento<T>, es: seq<Evento<T>>)
    ensures var p := Avancar(ops, v, s, e);
            Executar(ops, v, s, [e] + es) == Seguido(p, Executar(ops, v, p.depois, es))
  {
    assert ([e] + es)[0] == e && ([e] + es)[1..] == es;
  }

  /**
   * The page as written loses a form: queue `x`, click send, fill in `y` and queue it
   * while the request is pending, and let the request succeed. Only `x` is delivered,
   * yet the queue ends empty, so the second form is gone. The intended ending keeps it queued.
   */
  lemma PerdaDuranteEnvio<T>(ops: Formularios<T>, x: T, y: T)
    requires ops.valida(x) && ops.valida(ops.renderiza(ops.vazio, y))
    ensures var es := [Submissao, Clique, Alterar(y), Submissao, Resposta(true)];
            var s := Sessao(Cadastro(x, [], false), None);
            var escrito := Executar(ops, ComoEscrito, s, es);
            var corrigido := Executar(ops, Corrigido, s, es);
            && |escrito.aceitos| == 2 && escrito.entregues == [x] && escrito.depois.cadastro.fila == []
            && escrito.aceitos != escrito.entregues + escrito.depois.cadastro.fila
            && corrigido.aceitos == escrito.aceitos && corrigido.entregues == [x]
            && corrigido.depois.cadastro.fila == [corrigido.aceitos[1]]
  {
    var y2 := ops.renderiza(ops.vazio, y);
    PerdaPassos(ops, ComoEscrito, x, y, y2);
    PerdaPassos(ops, Corrigido, x, y, y2);
  }

  /** The losing run step by step; the two endings differ only in the response. */
  lemma PerdaPassos<T>(ops: Formularios<T>, v: Versao, x: T, y: T, y2: T)
    requires ops.valida(x) && ops.valida(y2) && y2 == ops.renderiza(ops.vazio, y)
    ensures var r := Executar(ops, v, Sessao(Cadastro(x, [], false), None),
                              [Submissao, Clique, Alterar(y), Submissao, Resposta(true)]);
            && r.aceitos == [x, y2] && r.entregues == [x]
            && r.depois.cadastro.fila == (if v == ComoEscrito then [] else [y2])
  {
    var r0 := ops.vazio;
    var s0 := Sessao(Cadastro(x, [], false), None);
    var s1 := Sessao(Cadastro(r0, [x], false), None);
    var s2 := Sessao(Cadastro(r0, [x], true), Some([x]));
    var s3 := Sessao(Cadastro(y2, [x], true), Some([x]));
    var s4 := Sessao(Cadastro(r0, [x, y2], true), Some([x]));
    var s5 := Sessao(Cadastro(r0, if v == ComoEscrito then [] else [y2], false), None);
    var e4: seq<Evento<T>> := [Resposta(true)];
    var e3 := [Submissao] + e4;
    var e2 := [Alterar(y)] + e3;
    var e1 := [Clique] + e2;
    assert [Submissao, Clique, Alterar(y), Submissao, Resposta(true)] == [Submissao] + e1;
    assert [x, y2][1..] == [y2];
    assert Avancar(ops, v, s4, Resposta(true)) == Passo(s5, [], [x]);
    ExecutarCons(ops, v, s4, Resposta(true), []);
    assert e4 == [Resposta(true)] + [];
    assert Executar(ops, v, s4, e4) == Passo(s5, [], [x]);
    assert Avancar(ops, v, s3, Submissao) == Passo(s4, [y2], []);
    ExecutarCons(ops, v, s3, Submissao, e4);
    assert Executar(ops, v, s3, e3) == Passo(s5, [y2], [x]);
    assert Avancar(ops, v, s2, Alterar(y)) == Passo(s3, [], []);
    ExecutarCons(ops, v, s2, Alterar(y), e3);
    assert Executar(ops, v, s2, e2) == Passo(s5, [y2], [x]);
    assert Avancar(ops, v, s1, Clique) == Passo(s2, [], []);
    ExecutarCons(ops, v, s1, Clique, e2);
    assert Executar(ops, v, s1, e1) == Passo(s5, [y2], [x]);
    assert Avancar(ops, v, s0, Submissao) == Passo(s1, [x], []);
    ExecutarCons(ops, v, s0, Submissao, e1);
    assert [x] + [y2] == [x, y2];
  }
}

=== FILE: numbers.dfy ===
/**
 * The two JavaScript number parsers the pages call, `parseInt` (stock levels) and
 * `parseFloat` (prices), over ASCII text. Values are exact: a parsed number is never
 * rounded to a double.
 */
module Numbers {
  import opened Wrappers
  import opened Text

  /** A JavaScript number as the pages compare it: `NaN`, a finite value, or an infinity. */
  datatype Number = NaN | Finite(value: real) | Infinity(negative: bool)

  /** JavaScript's `n <= k`; every comparison with `NaN` is false. */
  predicate AtMost(n: Number, k: real) {
    match n
    case NaN => false
    case Finite(v) => v <= k
    case Infinity(negative) => negative
  }

  predicate IsDigit(c: char) {
    '0' <= c <= '9'
  }

  /** The value of `c` as a digit of a base up to 36, or -1 when `c` is no digit at all. */
  function DigitValue(c: char): (d: int)
    ensures -1 <= d < 36
    ensures IsDigit(c) <==> 0 <= d < 10
  {
    if '0' <= c <= '9' then c as int - '0' as int
    else if 'a' <= c <= 'z' then c as int - 'a' as int + 10
    else if 'A' <= c <= 'Z' then c as int - 'A' as int + 10
    else -1
  }

  predicate IsDigitIn(c: char, radix: nat) {
    0 <= DigitValue(c) < radix
  }

  /** Length of the longest prefix of `s` made of digits of `radix`. */
  function DigitRun(s: string, radix: nat): (n: nat)
    ensures n <= |s|
    ensures forall i :: 0 <= i < n ==> IsDigitIn(s[i], radix)
    ensures n < |s| ==> !IsDigitIn(s[n], radix)
  {
    if s == [] || !IsDigitIn(s[0], radix) then 0 else 1 + DigitRun(s[1..], radix)
  }

  /** Positional value of a digit string of `radix`, most significant digit first. */
  function DigitsValue(ds: string, radix: nat): nat
    requires forall i :: 0 <= i < |ds| ==> IsDigitIn(ds[i], radix)
  {
    if ds == [] then 0
    else
      assert IsDigitIn(ds[|ds| - 1], radix);
      Place(DigitsValue(ds[..|ds| - 1], radix), radix, DigitValue(ds[|ds| - 1]))
  }

  /** Appends a digit of value `low` after the digits worth `high`. */
  function Place(high: nat, radix: nat, low: nat): nat {
    high * radix + low
  }

  function Pow10(e: nat): (p: nat)
    ensures p >= 1
  {
    if e == 0 then 1 else 10 * Pow10(e - 1)
  }

  /** `m` times ten to the power `e`. */
  function Scale(m: real, e: int): real {
    if e >= 0 then m * Pow10(e) as real else m / Pow10(-e) as real
  }

  lemma ScaleZero(m: real)
    ensures Scale(m, 0) == m
  {
    assert Pow10(0) as real == 1.0;
  }

  /** An optional leading `+` or `-`: whether it was `-`, and the text after it. */
  function SplitSign(s: string): (bool, string) {
    if s != [] && (s[0] == '-' || s[0] == '+') then (s[0] == '-', s[1..]) else (false, s)
  }

  /**
   * `parseInt(s)` without a radix argument: leading whitespace is skipped, an optional
   * sign is read, a `0x`/`0X` prefix selects base 16 (base 10 otherwise), and the longest
   * run of digits that follows is the value. No digit at all gives `NaN` (`None`).
   */
  function ParseInt(s: string): Option<int> {
    var (negative, u) := SplitSign(TrimStart(s));
    match IntMagnitude(u)
    case None => None
    case Some(v) =>
      var w: int := v;
      Some(if negative then -w else w)
  }

  /** The unsigned part of `parseInt`: radix prefix, then the longest run of digits. */
  function IntMagnitude(u: string): Option<nat> {
    var hex := |u| >= 2 && u[0] == '0' && (u[1] == 'x' || u[1] == 'X');
    var radix := if hex then 16 else 10;
    var body := if hex then u[2..] else u;
    var n := DigitRun(body, radix);
    if n == 0 then None else Some(DigitsValue(body[..n], radix))
  }

  /** The exponent part `e[+|-]digits` at the start of `s`; 0 when it is absent or has no digit. */
  function ExponentOf(s: string): int {
    if s != [] && (s[0] == 'e' || s[0] == 'E') then
      var (negative, t) := SplitSign(s[1..]);
      var n := DigitRun(t, 10);
      if n == 0 then 0
      else
        var v: int := DigitsValue(t[..n], 10);
        if negative then -v else v
    else 0
  }

  /**
   * `parseFloat(s)`: leading whitespace is skipped, an optional sign is read, then either
   * `Infinity` or the longest decimal literal `digits [. digits] [e [sign] digits]` with at
   * least one digit before the exponent. Nothing that qualifies gives `NaN`.
   */
  function ParseFloat(s: string): Number {
    var (negative, u) := SplitSign(TrimStart(s));
    var n := UnsignedFloat(u);
    if negative then Negate(n) else n
  }

  /** `Infinity`, or the decimal literal at the start of `u`, or `NaN`. */
  function UnsignedFloat(u: string): Number {
    if |u| >= 8 && u[..8] == "Infinity" then Infinity(false)
    else
      match DecimalMagnitude(u)
      case None => NaN
      case Some(m) => Finite(m)
  }

  /** Unary minus on JavaScript numbers. */
  function Negate(n: Number): Number {
    match n
    case NaN => NaN
    case Finite(v) => Finite(-v)
    case Infinity(negative) => Infinity(!negative)
  }

  /** The unsigned decimal literal at the start of `u`, if it has a digit before any exponent. */
  function DecimalMagnitude(u: string): Option<real> {
    var intLen := DigitRun(u, 10);
    var (frac, rest) := Fraction(u[intLen..]);
    if intLen == 0 && frac == [] then None
    else
      var digits := u[..intLen] + frac;
      assert forall i :: 0 <= i < |digits| ==> IsDigitIn(digits[i], 10) by {
        forall i | 0 <= i < |digits| ensures IsDigitIn(digits[i], 10) {
          if i >= intLen {
            assert digits[i] == frac[i - intLen];
          }
        }
      }
      var mantissa := DigitsValue(digits, 10) as real / Pow10(|frac|) as real;
      Some(Scale(mantissa, ExponentOf(rest)))
  }

  /** A fraction part `.digits` at the start of `s` (the digits may be absent), and the text after it. */
  function Fraction(s: string): (r: (string, string))
    ensures forall i :: 0 <= i < |r.0| ==> IsDigitIn(r.0[i], 10)
    ensures s == [] || s[0] != '.' ==> r == ([], s)
  {
    if s != [] && s[0] == '.' then
      var n := DigitRun(s[1..], 10);
      (s[1..][..n], s[1..][n..])
    else ([], s)
  }

  function DigitChar(d: nat): (c: char)
    requires d < 10
    ensures IsDigit(c) && DigitValue(c) == d
  {
    ('0' as int + d) as char
  }

  /** The canonical decimal spelling of `n`, as `String(n)` writes it. */
  function NatToDecimal(n: nat): (s: string)
    ensures s != []
    ensures forall i :: 0 <= i < |s| ==> IsDigit(s[i])
    ensures s[0] == '0' ==> |s| == 1
  {
    if n < 10 then [DigitChar(n)] else NatToDecimal(n / 10) + [DigitChar(n % 10)]
  }

  /** The canonical decimal spelling of an integer, with a `-` for negatives. */
  function IntToDecimal(i: int): string {
    if i < 0 then "-" + NatToDecimal(-i) else NatToDecimal(i)
  }

  lemma {:induction false} NatToDecimalValue(n: nat)
    ensures DigitsValue(NatToDecimal(n), 10) == n
  {
    var s := NatToDecimal(n);
    if n >= 10 {
      NatToDecimalValue(n / 10);
      assert s[..|s| - 1] == NatToDecimal(n / 10);
    }
  }

  lemma {:induction false} DigitRunAll(s: string, radix: nat)
    requires forall i :: 0 <= i < |s| ==> IsDigitIn(s[i], radix)
    ensures DigitRun(s, radix) == |s|
  {
    if s != [] {
      DigitRunAll(s[1..], radix);
    }
  }

  /** A run of decimal digits not starting with `0x` is read whole, in base 10. */
  lemma IntMagnitudeDigits(d: string)
    requires d != [] && forall i :: 0 <= i < |d| ==> IsDigit(d[i])
    ensures IntMagnitude(d) == Some(DigitsValue(d, 10))
  {
    assert |d| >= 2 ==> d[1] != 'x' && d[1] != 'X' by {
      if |d| >= 2 {
        assert IsDigit(d[1]);
      }
    }
    DigitRunAll(d, 10);
    assert d[..|d|] == d;
  }

  /** An all-digit string is read whole by the decimal-literal scanner. */
  lemma DecimalMagnitudeDigits(d: string)
    requires d != [] && forall i :: 0 <= i < |d| ==> IsDigit(d[i])
    ensures DecimalMagnitude(d) == Some(DigitsValue(d, 10) as real)
  {
    DigitRunAll(d, 10);
    DecimalMagnitudeWhole(d);
    ScaleUnit(DigitsValue(d, 10) as real);
  }

  /** Text that is one digit run has no fraction and no exponent. */
  lemma DecimalMagnitudeWhole(d: string)
    requires d != [] && DigitRun(d, 10) == |d|
    ensures DecimalMagnitude(d) == Some(Scale(DigitsValue(d, 10) as real / Pow10(0) as real, 0))
  {
    assert d[|d|..] == [];
    assert Fraction([]) == ([], []);
    assert ExponentOf([]) == 0;
    assert d[..|d|] + [] == d;
  }

  lemma ScaleUnit(m: real)
    ensures Scale(m / Pow10(0) as real, 0) == m
  {
    assert Pow10(0) as real == 1.0;
    assert m / 1.0 == m;
    ScaleZero(m);
  }

  /** The decimal spelling of an integer splits into its sign and its digits. */
  lemma IntToDecimalSign(i: int)
    ensures SplitSign(TrimStart(IntToDecimal(i))) == (i < 0, NatToDecimal(if i < 0 then -i else i))
  {
    if i < 0 {
      SplitSignMinus(NatToDecimal(-i));
    } else {
      SplitSignDigits(NatToDecimal(i));
    }
  }

  lemma SplitSignMinus(d: string)
    ensures SplitSign(TrimStart("-" + d)) == (true, d)
  {
    var s := "-" + d;
    assert s[0] == '-' && s[1..] == d;
  }

  lemma SplitSignDigits(d: string)
    requires d != [] && IsDigit(d[0])
    ensures SplitSign(TrimStart(d)) == (false, d)
  {
    assert !IsSpace(d[0]);
    assert TrimStart(d) == d;
    assert d[0] != '-' && d[0] != '+';
  }

  /** `parseInt` reads back every integer from its decimal spelling. */
  lemma ParseIntDecimal(i: int)
    ensures ParseInt(IntToDecimal(i)) == Some(i)
  {
    var n: nat := if i < 0 then -i else i;
    IntToDecimalSign(i);
    IntMagnitudeDigits(NatToDecimal(n));
    NatToDecimalValue(n);
  }

  /** `parseFloat` reads back every integer from its decimal spelling. */
  lemma ParseFloatDecimal(i: int)
    ensures ParseFloat(IntToDecimal(i)) == Finite(i as real)
  {
    var n: nat := if i < 0 then -i else i;
    var d := NatToDecimal(n);
    IntToDecimalSign(i);
    UnsignedFloatDigits(d);
    NatToDecimalValue(n);
  }

  lemma UnsignedFloatDigits(d: string)
    requires d != [] && forall i :: 0 <= i < |d| ==> IsDigit(d[i])
    ensures UnsignedFloat(d) == Finite(DigitsValue(d, 10) as real)
  {
    assert !(|d| >= 8 && d[..8] == "Infinity") by {
      if |d| >= 8 {
        assert IsDigit(d[..8][0]);
      }
    }
    DecimalMagnitudeDigits(d);
  }

  /** A digit run stops at the first character that is not a digit. */
  lemma {:induction false} DigitRunStops(a: string, rest: string, radix: nat)
    requires forall i :: 0 <= i < |a| ==> IsDigitIn(a[i], radix)
    requires rest == [] || !IsDigitIn(rest[0], radix)
    ensures DigitRun(a + rest, radix) == |a|
  {
    if a == [] {
      assert a + rest == rest;
    } else {
      assert (a + rest)[1..] == a[1..] + rest;
      DigitRunStops(a[1..], rest, radix);
    }
  }

  /** `parseFloat` of `a.b` with digit strings `a` (non-empty) and `b` is the digits of both over ten to the `|b|`. */
  lemma ParseFloatFraction(a: string, b: string)
    requires a != [] && forall i :: 0 <= i < |a| ==> IsDigit(a[i])
    requires forall i :: 0 <= i < |b| ==> IsDigit(b[i])
    ensures ParseFloat(a + "." + b) == Finite(DigitsValue(a + b, 10) as real / Pow10(|b|) as real)
  {
    var s := a + "." + b;
    assert s[0] == a[0];
    DecimalMagnitudeFraction(a, b);
    ParseFloatFromDigit(s);
  }

  /** Text starting with a digit has no blank, sign or `Infinity` in front of its literal. */
  lemma ParseFloatFromDigit(s: string)
    requires s != [] && IsDigit(s[0])
    ensures DecimalMagnitude(s).Some? ==> ParseFloat(s) == Finite(DecimalMagnitude(s).value)
  {
    assert TrimStart(s) == s;
    assert SplitSign(s) == (false, s);
    assert !(|s| >= 8 && s[..8] == "Infinity") by {
      assert IsDigit(s[0]);
    }
  }

  lemma DecimalMagnitudeFraction(a: string, b: string)
    requires a != [] && forall i :: 0 <= i < |a| ==> IsDigit(a[i])
    requires forall i :: 0 <= i < |b| ==> IsDigit(b[i])
    ensures DecimalMagnitude(a + "." + b) == Some(DigitsValue(a + b, 10) as real / Pow10(|b|) as real)
  {
    var s := a + "." + b;
    assert s == a + ("." + b);
    DigitRunStops(a, "." + b, 10);
    assert s[|a|..] == "." + b;
    assert s[..|a|] == a;
    FractionDigits(b);
    DecimalMagnitudeOf(s, |a|, b, []);
    assert ExponentOf([]) == 0;
    ScaleZero(DigitsValue(a + b, 10) as real / Pow10(|b|) as real);
  }

  /** The scanner's result once the integer digits, the fraction and the rest are known. */
  lemma DecimalMagnitudeOf(u: string, intLen: nat, frac: string, rest: string)
    requires intLen <= |u| && DigitRun(u, 10) == intLen && Fraction(u[intLen..]) == (frac, rest)
    requires intLen > 0 || frac != []
    ensures forall i :: 0 <= i < |u[..intLen] + frac| ==> IsDigitIn((u[..intLen] + frac)[i], 10)
    ensures DecimalMagnitude(u)
         == Some(Scale(DigitsValue(u[..intLen] + frac, 10) as real / Pow10(|frac|) as real, ExponentOf(rest)))
  {
    var digits := u[..intLen] + frac;
    forall i | 0 <= i < |digits| ensures IsDigitIn(digits[i], 10) {
      if i >= intLen {
        assert digits[i] == frac[i - intLen];
      }
    }
  }

  lemma FractionDigits(b: string)
    requires forall i :: 0 <= i < |b| ==> IsDigit(b[i])
    ensures Fraction("." + b) == (b, [])
  {
    assert ("." + b)[1..] == b + [];
    DigitRunStops(b, [], 10);
    assert b[..|b|] == b && b[|b|..] == [];
  }

  /** Text without a decimal digit parses as `NaN` under `parseInt`. */
  lemma ParseIntNoDigit(s: string)
    requires forall i :: 0 <= i < |s| ==> !IsDigit(s[i])
    ensures ParseInt(s) == None
  {
    var u := SplitSign(TrimStart(s)).1;
    assert u == s[|s| - |u|..];
    if u != [] {
      assert u[0] == s[|s| - |u|];
    }
  }

  /** Text without a decimal digit or an `I` parses as `NaN` under `parseFloat`. */
  lemma ParseFloatNoDigit(s: string)
    requires forall i :: 0 <= i < |s| ==> !IsDigit(s[i]) && s[i] != 'I'
    ensures ParseFloat(s) == NaN
  {
    var u := SplitSign(TrimStart(s)).1;
    assert u == s[|s| - |u|..];
    UnsignedFloatNoDigit(u);
  }

  lemma UnsignedFloatNoDigit(u: string)
    requires forall i :: 0 <= i < |u| ==> !IsDigit(u[i]) && u[i] != 'I'
    ensures UnsignedFloat(u) == NaN
  {
    if |u| >= 8 {
      assert u[..8][0] == u[0];
    }
    if u != [] && u[0] == '.' {
      assert u[1..] == [] || !IsDigit(u[1..][0]);
    }
  }
}

=== FILE: registration.dfy ===
/**
 * The registration page: the product form with its defaults, the SKU effect, the
 * validation run on submit, and the batch queue that is sent to the webhook in one
 * request. Every browser effect is a value here: the request's outcome is a parameter
 * and an asynchronous send is split into the click that starts it and the response
 * that ends it, so that other events can happen in between.
 */
module Registration {
  import opened Wrappers
  import opened Text
  import opened Numbers
  import opened Sku
  import opened Lote

  /** An uploaded image; only its identity matters to the page. */
  datatype Arquivo = Arquivo(nome: string)

  /** Every input of the form, as text except the image list and the infinite-stock switch. */
  datatype ProdutoForm = ProdutoForm(
    nomeProduto: string,
    descricaoDetalhada: string,
    imagensUrls: string,
    imagensFiles: seq<Arquivo>,
    precoVenda: string,
    precoPromocional: string,
    precoCusto: string,
    custoFrete: string,
    fornecedor: string,
    categoria: string,
    estoqueInicial: string,
    estoqueInfinito: bool,
    sku: string,
    gtinEanIsbn: string,
    tipoProduto: string,
    pesoG: string,
    alturaCm: string,
    larguraCm: string,
    comprimentoCm: string,
    tags: string,
    localEstoque: string,
    opcao1Nome: string,
    opcao1Valor: string,
    opcao2Nome: string,
    opcao2Valor: string)

  /** The form the page starts with. */
  const FormularioInicial := ProdutoForm(
    "", "", "", [], "", "", "", "", "", "", "", false, "", "", "", "", "", "", "", "",
    "Sede", "Tamanho", "", "Cor", "")

  /**
   * Every free-text input is blank and no image is attached; the stock place and the two
   * option names are left to the caller.
   */
  predicate EmBranco(f: ProdutoForm) {
    && f.nomeProduto == [] && f.descricaoDetalhada == [] && f.imagensUrls == []
    && f.imagensFiles == [] && f.precoVenda == [] && f.precoPromocional == []
    && f.precoCusto == [] && f.custoFrete == [] && f.fornecedor == [] && f.categoria == []
    && f.estoqueInicial == [] && f.sku == [] && f.gtinEanIsbn == [] && f.tipoProduto == []
    && f.pesoG == [] && f.alturaCm == [] && f.larguraCm == [] && f.comprimentoCm == []
    && f.tags == [] && f.opcao1Valor == [] && f.opcao2Valor == []
  }

  /**
   * `resetarFormulario`, which writes its own copy of the defaults: a blank form with
   * finite stock, the stock kept at "Sede" and the options named "Tamanho" and "Cor".
   */
  function Resetar(): (r: ProdutoForm)
    ensures EmBranco(r) && !r.estoqueInfinito
    ensures r.localEstoque == "Sede" && r.opcao1Nome == "Tamanho" && r.opcao2Nome == "Cor"
    ensures r == FormularioInicial
  {
    ProdutoForm(
      "", "", "", [], "", "", "", "", "", "", "", false, "", "", "", "", "", "", "", "",
      "Sede", "Tamanho", "", "Cor", "")
  }

  // ---------------------------------------------------------------------------
  // SKU effect
  // ---------------------------------------------------------------------------

  /** The four inputs the SKU is built from, which are also the effect's dependencies. */
  function Dependencias(f: ProdutoForm): (string, string, string, string) {
    (f.categoria, f.nomeProduto, f.opcao2Valor, f.opcao1Valor)
  }

  /** The effect writes a SKU only when all four inputs are non-empty (JavaScript truthiness). */
  predicate DisparaSku(f: ProdutoForm) {
    f.categoria != [] && f.nomeProduto != [] && f.opcao2Valor != [] && f.opcao1Valor != []
  }

  /**
   * One run of the SKU effect's body. When it fires only the SKU changes, and it becomes
   * the derivation of the four inputs; otherwise the form is left exactly as it was.
   */
  function AplicarSku(f: ProdutoForm): (r: ProdutoForm)
    ensures r == f.(sku := r.sku)
    ensures DisparaSku(f) ==> r.sku == DeriveSku(f.categoria, f.nomeProduto, f.opcao2Valor, f.opcao1Valor)
    ensures DisparaSku(f) ==> NoSpace(r.sku) && NoUpper(r.sku)
    ensures !DisparaSku(f) ==> r == f
    ensures Dependencias(r) == Dependencias(f)
  {
    if DisparaSku(f) then
      f.(sku := DeriveSku(f.categoria, f.nomeProduto, f.opcao2Valor, f.opcao1Valor))
    else f
  }

  /**
   * Running the effect again changes nothing: it does not touch its own dependencies,
   * so its second run derives the same SKU from the same inputs.
   */
  lemma AplicarSkuIdempotente(f: ProdutoForm)
    ensures AplicarSku(AplicarSku(f)) == AplicarSku(f)
  {
    var g := AplicarSku(f);
    assert DisparaSku(g) == DisparaSku(f);
  }

  /** The effect's run after a reset leaves the fresh form alone. */
  lemma AplicarSkuResetado()
    ensures AplicarSku(Resetar()) == Resetar()
  {
  }

  /**
   * A render with form `novo` after a render with form `anterior`: React runs the effect
   * only when one of its four dependencies changed.
   */
  function Renderizar(anterior: ProdutoForm, novo: ProdutoForm): (r: ProdutoForm)
    ensures Dependencias(novo) == Dependencias(anterior) ==> r == novo
    ensures Dependencias(novo) != Dependencias(anterior) && !DisparaSku(novo) ==> r == novo
    ensures Dependencias(novo) != Dependencias(anterior) && DisparaSku(novo) ==>
      r == novo.(sku := DeriveSku(novo.categoria, novo.nomeProduto, novo.opcao2Valor, novo.opcao1Valor))
  {
    if Dependencias(novo) != Dependencias(anterior) then AplicarSku(novo) else novo
  }

  /**
   * A SKU typed by hand survives until one of the four inputs is edited: changing only
   * the SKU does not re-run the effect.
   */
  lemma SkuManualPreservado(f: ProdutoForm, sku: string)
    ensures Renderizar(f, f.(sku := sku)).sku == sku
  {
  }

  /** Editing one of the four inputs so that all are filled replaces a hand-typed SKU. */
  lemma SkuManualSubstituido(f: ProdutoForm, novo: ProdutoForm)
    requires Dependencias(novo) != Dependencias(f) && DisparaSku(novo)
    ensures Renderizar(f, novo).sku == DeriveSku(novo.categoria, novo.nomeProduto, novo.opcao2Valor, novo.opcao1Valor)
  {
  }

  /**
   * A derived SKU goes stale: clearing one of the four inputs (here the size) after the
   * effect has written a SKU leaves that SKU in place, still built from the cleared
   * value, and validation, which never reads the SKU, accepts the form exactly as before.
   */
  lemma SkuObsoleto(f: ProdutoForm)
    requires DisparaSku(f)
    ensures var g := AplicarSku(f);
            var h := Renderizar(g, g.(opcao1Valor := []));
            h.opcao1Valor == [] && !DisparaSku(h)
            && h.sku == DeriveSku(f.categoria, f.nomeProduto, f.opcao2Valor, f.opcao1Valor)
            && Validar(h) == Validar(f)
  {
    var g := AplicarSku(f);
    var h := Renderizar(g, g.(opcao1Valor := []));
    ValidarSoNomeEPrecos(h, f);
  }

  // ---------------------------------------------------------------------------
  // Validation
  // ---------------------------------------------------------------------------

  /**
   * `validateForm`: the name must not trim to nothing, and neither the sale price nor
   * the cost price may parse to a number at most 0. A price that does not parse is
   * `NaN`, which compares false and so passes; the promotional price is not looked at.
   */
  function Validar(f: ProdutoForm): (ok: bool)
    ensures !ok <==>
      AllSpace(f.nomeProduto) || AtMost(ParseFloat(f.precoVenda), 0.0) || AtMost(ParseFloat(f.precoCusto), 0.0)
  {
    TrimEmptyIffAllSpace(f.nomeProduto);
    !(Trim(f.nomeProduto) == [] || AtMost(ParseFloat(f.precoVenda), 0.0) || AtMost(ParseFloat(f.precoCusto), 0.0))
  }

  /** Validation reads only the name and the two prices; in particular not the promotional price. */
  lemma ValidarSoNomeEPrecos(f: ProdutoForm, g: ProdutoForm)
    requires f.nomeProduto == g.nomeProduto && f.precoVenda == g.precoVenda && f.precoCusto == g.precoCusto
    ensures Validar(f) == Validar(g)
  {
  }

  /** Prices written as whole numbers are accepted exactly when both are positive. */
  lemma ValidarInteiros(f: ProdutoForm, venda: int, custo: int)
    requires f.precoVenda == IntToDecimal(venda) && f.precoCusto == IntToDecimal(custo)
    ensures Validar(f) <==> !AllSpace(f.nomeProduto) && venda > 0 && custo > 0
  {
    ParseFloatDecimal(venda);
    ParseFloatDecimal(custo);
  }

  /**
   * Prices that do not parse are not caught: blank prices, or any text without a digit
   * (and not starting an "Infinity"), pass as long as the name is filled in.
   */
  lemma ValidarPrecoIlegivel(f: ProdutoForm)
    requires forall i :: 0 <= i < |f.precoVenda| ==> !IsDigit(f.precoVenda[i]) && f.precoVenda[i] != 'I'
    requires forall i :: 0 <= i < |f.precoCusto| ==> !IsDigit(f.precoCusto[i]) && f.precoCusto[i] != 'I'
    ensures Validar(f) <==> !AllSpace(f.nomeProduto)
  {
    ParseFloatNoDigit(f.precoVenda);
    ParseFloatNoDigit(f.precoCusto);
  }

  /** The freshly reset form is rejected: its name is blank. */
  lemma ValidarResetado()
    ensures !Validar(Resetar())
  {
    assert AllSpace(Resetar().nomeProduto);
  }

  // ---------------------------------------------------------------------------
  // Batch queue
  // ---------------------------------------------------------------------------

  /**
   * The page's forms as the batch queue sees them: `validateForm` decides a submission,
   * an edit is a render followed by the SKU effect, and a reset gives the initial form.
   */
  const Pagina: Formularios<ProdutoForm> := Formularios(Validar, Renderizar, Resetar())

  /** The page as it mounts: the initial form, an empty queue, nothing loading, no request. */
  const SessaoInicial: Sessao<ProdutoForm> := Sessao(Cadastro(FormularioInicial, [], false), None)

  /**
   * `handleSubmit` on this page: a form that fails `validateForm` changes nothing; one
   * that passes ends the queue and the form starts over from the initial one, whose
   * blank inputs do not set the SKU effect off.
   */
  lemma SubmeterFormulario(s: Cadastro<ProdutoForm>)
    ensures !Validar(s.form) ==> Submeter(Pagina, s) == s
    ensures Validar(s.form) ==> Submeter(Pagina, s) == Cadastro(FormularioInicial, s.fila + [s.form], s.enviando)
    ensures Renderizar(s.form, Submeter(Pagina, s).form) == Submeter(Pagina, s).form
  {
    var r := Submeter(Pagina, s);
    if Validar(s.form) {
      assert r.form == Resetar();
      assert !DisparaSku(Resetar());
    }
  }

  /**
   * With the intended ending of a request, every session of the page from its first
   * render keeps the queue coherent, and every form accepted has either been delivered,
   * in order and once, or is still queued behind those.
   */
  lemma SessaoSemPerda(es: seq<Evento<ProdutoForm>>)
    ensures var r := Executar(Pagina, Corrigido, SessaoInicial, es);
            Coerente(r.depois) && r.aceitos == r.entregues + r.depois.cadastro.fila
  {
    ExecutarConserva(Pagina, SessaoInicial, es);
    assert SessaoInicial.cadastro.fila == [];
  }

  /**
   * The lost-form run applies to this page: any two forms that pass validation meet
   * the conditions under which `PerdaDuranteEnvio` loses the second one, because the
   * SKU effect run on the edited form does not change its name or prices.
   */
  lemma PerdaNaPagina(x: ProdutoForm, y: ProdutoForm)
    requires Validar(x) && Validar(y)
    ensures Pagina.valida(x) && Pagina.valida(Pagina.renderiza(Pagina.vazio, y))
  {
    ValidarSoNomeEPrecos(y, Renderizar(Resetar(), y));
  }
}

=== FILE: seqs.dfy ===
/**
 * The two list idioms the listing page uses: `Array.prototype.filter` and
 * `Array.from(new Set(xs))`.
 */
module Seqs {

  /** `a` is `b` with some elements left out, the rest kept in order. */
  ghost predicate IsSubsequence<T(!new)>(a: seq<T>, b: seq<T>)
    decreases |b|
  {
    a == [] || (b != [] && ((a[0] == b[0] && IsSubsequence(a[1..], b[1..])) || IsSubsequence(a, b[1..])))
  }

  lemma {:induction false} SubsequenceReflexive<T(!new)>(a: seq<T>)
    ensures IsSubsequence(a, a)
  {
    if a != [] {
      SubsequenceReflexive(a[1..]);
    }
  }

  lemma {:induction false} SubsequenceTransitive<T(!new)>(a: seq<T>, b: seq<T>, c: seq<T>)
    requires IsSubsequence(a, b) && IsSubsequence(b, c)
    ensures IsSubsequence(a, c)
    decreases |c|
  {
    if a != [] {
      if b[0] == c[0] && IsSubsequence(b[1..], c[1..]) {
        if a[0] == b[0] && IsSubsequence(a[1..], b[1..]) {
          SubsequenceTransitive(a[1..], b[1..], c[1..]);
        } else {
          SubsequenceTransitive(a, b[1..], c[1..]);
        }
      } else {
        SubsequenceTransitive(a, b, c[1..]);
      }
    }
  }

  predicate NoDuplicates<T(==,!new)>(xs: seq<T>) {
    forall i, j :: 0 <= i < j < |xs| ==> xs[i] != xs[j]
  }

  /** `xs.filter(p)`. */
  function Keep<T(!new)>(xs: seq<T>, p: T -> bool): (r: seq<T>)
    ensures |r| <= |xs|
    ensures forall x :: x in r <==> x in xs && p(x)
  {
    if xs == [] then []
    else (if p(xs[0]) then [xs[0]] else []) + Keep(xs[1..], p)
  }

  /** Every kept value appears as often as in the input, every other value not at all. */
  lemma {:induction false} KeepCount<T(!new)>(xs: seq<T>, p: T -> bool, x: T)
    ensures multiset(Keep(xs, p))[x] == if p(x) then multiset(xs)[x] else 0
  {
    if xs != [] {
      KeepCount(xs[1..], p, x);
      assert xs == [xs[0]] + xs[1..];
    }
  }

  /** Filtering drops elements but never reorders the ones it keeps. */
  lemma {:induction false} KeepIsSubsequence<T(!new)>(xs: seq<T>, p: T -> bool)
    ensures IsSubsequence(Keep(xs, p), xs)
  {
    if xs != [] {
      KeepIsSubsequence(xs[1..], p);
      var k, rest := Keep(xs, p), Keep(xs[1..], p);
      if p(xs[0]) {
        assert k == [xs[0]] + rest;
        assert k[0] == xs[0] && k[1..] == rest;
      } else {
        assert k == [] + rest == rest;
      }
    }
  }

  /** A filter every element passes returns its input. */
  lemma {:induction false} KeepAll<T(!new)>(xs: seq<T>, p: T -> bool)
    requires forall i :: 0 <= i < |xs| ==> p(xs[i])
    ensures Keep(xs, p) == xs
  {
    if xs != [] {
      KeepAll(xs[1..], p);
      assert xs == [xs[0]] + xs[1..];
    }
  }

  lemma {:induction false} KeepAppend<T(!new)>(a: seq<T>, b: seq<T>, p: T -> bool)
    ensures Keep(a + b, p) == Keep(a, p) + Keep(b, p)
  {
    if a == [] {
      assert a + b == b;
    } else {
      assert (a + b)[0] == a[0] && (a + b)[1..] == a[1..] + b;
      KeepAppend(a[1..], b, p);
    }
  }

  /** Filtering a prefix gives a prefix of the filtered list. */
  lemma KeepPrefix<T(!new)>(a: seq<T>, b: seq<T>, p: T -> bool)
    requires a <= b
    ensures Keep(a, p) <= Keep(b, p)
  {
    assert b == a + b[|a|..];
    KeepAppend(a, b[|a|..], p);
  }

  /** When exactly one position passes the filter, the filter keeps exactly that element. */
  lemma {:induction false} KeepSingle<T(!new)>(xs: seq<T>, p: T -> bool, k: nat)
    requires k < |xs| && p(xs[k])
    requires forall i :: 0 <= i < |xs| && i != k ==> !p(xs[i])
    ensures Keep(xs, p) == [xs[k]]
  {
    if k == 0 {
      KeepNone(xs[1..], p);
    } else {
      KeepSingle(xs[1..], p, k - 1);
    }
  }

  /** When no position passes the filter, nothing is kept. */
  lemma {:induction false} KeepNone<T(!new)>(xs: seq<T>, p: T -> bool)
    requires forall i :: 0 <= i < |xs| ==> !p(xs[i])
    ensures Keep(xs, p) == []
  {
    if xs != [] {
      KeepNone(xs[1..], p);
    }
  }

  lemma {:induction false} KeepNoDuplicates<T(!new)>(xs: seq<T>, p: T -> bool)
    requires NoDuplicates(xs)
    ensures NoDuplicates(Keep(xs, p))
  {
    if xs != [] {
      KeepNoDuplicates(xs[1..], p);
      assert xs[0] !in xs[1..] by {
        forall j | 0 <= j < |xs[1..]| ensures xs[1..][j] != xs[0] {
          assert xs[1..][j] == xs[j + 1];
        }
      }
    }
  }

  /** `Array.from(new Set(xs))`: every value once, in the order of its first occurrence. */
  function Distinct<T(==,!new)>(xs: seq<T>): (r: seq<T>)
    ensures forall x :: x in r <==> x in xs
    ensures NoDuplicates(r)
  {
    if xs == [] then []
    else
      var d := Distinct(xs[..|xs| - 1]);
      var x := xs[|xs| - 1];
      assert xs == xs[..|xs| - 1] + [x];
      if x in d then d else d + [x]
  }

  /** A list without repeated values is its own de-duplication. */
  lemma {:induction false} DistinctOfDistinct<T(!new)>(xs: seq<T>)
    requires NoDuplicates(xs)
    ensures Distinct(xs) == xs
  {
    if xs != [] {
      var init := xs[..|xs| - 1];
      DistinctOfDistinct(init);
      assert xs[|xs| - 1] !in init by {
        forall i | 0 <= i < |init| ensures init[i] != xs[|xs| - 1] {
          assert init[i] == xs[i];
        }
      }
      assert xs == init + [xs[|xs| - 1]];
    }
  }

  /**
   * Insertion order: the values first seen in a prefix of `xs` come first, in the same
   * order, in the values of the whole of `xs`.
   */
  lemma {:induction false} DistinctPrefix<T(!new)>(xs: seq<T>, k: nat)
    requires k <= |xs|
    ensures Distinct(xs[..k]) <= Distinct(xs)
    decreases |xs| - k
  {
    if k == |xs| {
      assert xs[..k] == xs;
    } else {
      var init := xs[..|xs| - 1];
      DistinctPrefix(init, k);
      assert init[..k] == xs[..k];
    }
  }
}

=== FILE: sku.dfy ===
/**
 * SKU derivation on the registration form: the template
 * `${categoria}-${nome_produto}-${opcao2_valor}-${opcao1_valor}`, lower-cased, with
 * every run of whitespace replaced by one hyphen.
 */
module Sku {
  import opened Text

  /** `s.toLowerCase().replace(/\s+/g, '-')`. */
  function Normalize(s: string): (r: string)
    ensures NoSpace(r) && NoUpper(r)
  {
    LowerResult(s);
    CollapseSpacesShape(Lower(s));
    CollapseSpaces(Lower(s))
  }

  /** The SKU built from category, product name, second option value and first option value. */
  function DeriveSku(categoria: string, nome: string, opcao2: string, opcao1: string): (r: string)
    ensures NoSpace(r) && NoUpper(r)
  {
    Normalize(categoria + "-" + nome + "-" + opcao2 + "-" + opcao1)
  }

  /** A normalised string is its own normal form, so normalising twice changes nothing. */
  lemma NormalizeIdempotent(s: string)
    ensures Normalize(Normalize(s)) == Normalize(s)
  {
    var n := Normalize(s);
    LowerResult(n);
    CollapseNoSpace(n);
  }

  /** Text already lower-case and without whitespace is its own normal form. */
  lemma NormalizeNormal(s: string)
    requires NoSpace(s) && NoUpper(s)
    ensures Normalize(s) == s
  {
    LowerResult(s);
    CollapseNoSpace(s);
  }

  /** A hyphen separates: normalising `x-y` normalises `x` and `y` on their own. */
  lemma NormalizeHyphenJoin(x: string, y: string)
    ensures Normalize(x + "-" + y) == Normalize(x) + "-" + Normalize(y)
  {
    var lx, ly := Lower(x), Lower(y);
    assert Lower(x + "-" + y) == lx + ("-" + ly);
    CollapseAppend(lx, "-" + ly, false);
    CollapseWord("-", ly);
    assert CollapseSpaces(lx) + ("-" + CollapseSpaces(ly)) == CollapseSpaces(lx) + "-" + CollapseSpaces(ly);
  }

  /**
   * The hyphens of the template separate the four fields, so the SKU is the four
   * separately normalised fields joined by hyphens.
   */
  lemma DeriveSkuParts(categoria: string, nome: string, opcao2: string, opcao1: string)
    ensures DeriveSku(categoria, nome, opcao2, opcao1)
         == Normalize(categoria) + "-" + Normalize(nome) + "-" + Normalize(opcao2) + "-" + Normalize(opcao1)
  {
    var j1 := categoria + "-" + nome;
    var j2 := j1 + "-" + opcao2;
    NormalizeHyphenJoin(categoria, nome);
    NormalizeHyphenJoin(j1, opcao2);
    NormalizeHyphenJoin(j2, opcao1);
  }

  /** When every field is already lower-case and whitespace-free the SKU is the plain hyphen join. */
  lemma DeriveSkuNormalized(categoria: string, nome: string, opcao2: string, opcao1: string)
    requires NoSpace(categoria) && NoUpper(categoria)
    requires NoSpace(nome) && NoUpper(nome)
    requires NoSpace(opcao2) && NoUpper(opcao2)
    requires NoSpace(opcao1) && NoUpper(opcao1)
    ensures DeriveSku(categoria, nome, opcao2, opcao1) == categoria + "-" + nome + "-" + opcao2 + "-" + opcao1
  {
    DeriveSkuParts(categoria, nome, opcao2, opcao1);
    NormalizeNormal(categoria);
    NormalizeNormal(nome);
    NormalizeNormal(opcao2);
    NormalizeNormal(opcao1);
  }

  /** Three words separated by single spaces become the three words joined by hyphens. */
  lemma CollapseThreeWords(a: string, b: string, c: string)
    requires NoSpace(a)
    requires b != [] && NoSpace(b)
    requires c != [] && NoSpace(c)
    ensures CollapseSpaces(a + " " + b + " " + c) == a + "-" + b + "-" + c
  {
    assert a + " " + b + " " + c == a + (" " + (b + (" " + c)));
    CollapseWord(a, " " + (b + (" " + c)));
    CollapseRun(" ", b + (" " + c));
    CollapseWord(b, " " + c);
    CollapseRun(" ", c);
    CollapseNoSpace(c);
  }

  /**
   * A word, then a whitespace run of any length, then the rest of the text: the word is
   * lower-cased and the whole run becomes a single hyphen.
   */
  lemma NormalizeRun(w: string, run: string, rest: string)
    requires NoSpace(w)
    requires run != [] && AllSpace(run)
    requires rest == [] || !IsSpace(rest[0])
    ensures Normalize(w + run + rest) == Lower(w) + "-" + Normalize(rest)
  {
    var lw, lrun, lrest := Lower(w), Lower(run), Lower(rest);
    assert Lower(w + run + rest) == lw + (lrun + lrest);
    assert AllSpace(lrun);
    assert lrest == [] || !IsSpace(lrest[0]);
    LowerResult(w);
    CollapseWord(lw, lrun + lrest);
    CollapseRun(lrun, lrest);
  }

  /** A single word (no whitespace) normalises to its lower-case form. */
  lemma NormalizeWord(s: string)
    requires NoSpace(s)
    ensures Normalize(s) == Lower(s)
  {
    LowerResult(s);
    CollapseNoSpace(Lower(s));
  }

  /**
   * A product name of three words separated by single spaces contributes its three
   * lower-cased words, each followed by a hyphen join.
   */
  lemma DeriveSkuThreeWordName(categoria: string, w1: string, w2: string, w3: string, opcao2: string, opcao1: string)
    requires NoSpace(categoria) && NoSpace(w1) && NoSpace(opcao2) && NoSpace(opcao1)
    requires w2 != [] && NoSpace(w2) && w3 != [] && NoSpace(w3)
    ensures DeriveSku(categoria, w1 + " " + w2 + " " + w3, opcao2, opcao1)
         == Lower(categoria) + "-" + (Lower(w1) + "-" + Lower(w2) + "-" + Lower(w3)) + "-" + Lower(opcao2) + "-" + Lower(opcao1)
  {
    DeriveSkuParts(categoria, w1 + " " + w2 + " " + w3, opcao2, opcao1);
    NormalizeWord(categoria);
    NormalizeWord(opcao2);
    NormalizeWord(opcao1);
    NormalizeThreeWords(w1, w2, w3);
  }

  lemma NormalizeThreeWords(w1: string, w2: string, w3: string)
    requires NoSpace(w1) && w2 != [] && NoSpace(w2) && w3 != [] && NoSpace(w3)
    ensures Normalize(w1 + " " + w2 + " " + w3) == Lower(w1) + "-" + Lower(w2) + "-" + Lower(w3)
  {
    var l1, l2, l3 := Lower(w1), Lower(w2), Lower(w3);
    LowerResult(w1);
    LowerResult(w2);
    LowerResult(w3);
    assert Lower(w1 + " " + w2 + " " + w3) == l1 + " " + l2 + " " + l3;
    CollapseThreeWords(l1, l2, l3);
  }

  /**
   * The form's own example: `Camisetas`, `Camiseta Fitness Pro`, `Preto`, `M` give
   * `camisetas-camiseta-fitness-pro-preto-m`.
   */
  lemma DeriveSkuExample(categoria: string, nome: string, opcao2: string, opcao1: string)
    requires categoria == "Camisetas" && nome == "Camiseta Fitness Pro"
    requires opcao2 == "Preto" && opcao1 == "M"
    ensures DeriveSku(categoria, nome, opcao2, opcao1) == "camisetas-camiseta-fitness-pro-preto-m"
  {
    ExampleSkuText("camisetas-camiseta-fitness-pro-preto-m");
    ExampleName(nome);
    DeriveSkuThreeWordName(categoria, "Camiseta", "Fitness", "Pro", opcao2, opcao1);
    ExampleLowers(categoria, opcao2, opcao1);
  }

  lemma ExampleLowers(categoria: string, opcao2: string, opcao1: string)
    requires categoria == "Camisetas" && opcao2 == "Preto" && opcao1 == "M"
    ensures Lower(categoria) == "camisetas" && Lower(opcao2) == "preto" && Lower(opcao1) == "m"
    ensures Lower("Camiseta") == "camiseta" && Lower("Fitness") == "fitness" && Lower("Pro") == "pro"
  {
  }

  lemma ExampleSkuText(r: string)
    requires r == "camisetas-camiseta-fitness-pro-preto-m"
    ensures r == "camisetas" + "-" + ("camiseta" + "-" + "fitness" + "-" + "pro") + "-" + "preto" + "-" + "m"
  {
  }

  lemma ExampleName(nome: string)
    requires nome == "Camiseta Fitness Pro"
    ensures nome == "Camiseta" + " " + "Fitness" + " " + "Pro"
  {
  }
}

=== FILE: text.dfy ===
/**
 * The string primitives the catalog pages rely on, restricted to ASCII:
 * `toLowerCase`, `trim`, `includes`, and `replace(/\s+/g, '-')`.
 */
module Text {

  /** ASCII members of JavaScript's `\s` class, which is also what `trim` removes. */
  predicate IsSpace(c: char) {
    c == ' ' || c == '\t' || c == '\n' || c == '\r' || c == '\U{000B}' || c == '\U{000C}'
  }

  predicate IsUpper(c: char) {
    'A' <= c <= 'Z'
  }

  /** Every character of `s` is whitespace (vacuously true of the empty string). */
  predicate AllSpace(s: string) {
    forall i :: 0 <= i < |s| ==> IsSpace(s[i])
  }

  predicate NoSpace(s: string) {
    forall i :: 0 <= i < |s| ==> !IsSpace(s[i])
  }

  predicate NoUpper(s: string) {
    forall i :: 0 <= i < |s| ==> !IsUpper(s[i])
  }

  /** ASCII `toLowerCase` of one character; every other character is left as it is. */
  function LowerChar(c: char): (r: char)
    ensures !IsUpper(r)
    ensures IsSpace(r) <==> IsSpace(c)
    ensures !IsUpper(c) ==> r == c
    ensures IsUpper(c) ==> r as int - c as int == 32
  {
    if IsUpper(c) then (c as int + 32) as char else c
  }

  /** `s.toLowerCase()`, character by character. */
  function Lower(s: string): (r: string)
    ensures |r| == |s|
    ensures forall i :: 0 <= i < |s| ==> r[i] == LowerChar(s[i])
  {
    seq(|s|, i requires 0 <= i < |s| => LowerChar(s[i]))
  }

  lemma LowerResult(s: string)
    ensures NoUpper(Lower(s))
    ensures NoSpace(s) ==> NoSpace(Lower(s))
    ensures NoUpper(s) ==> Lower(s) == s
  {
  }

  /** A lower-case letter appears in `Lower(s)` only where `s` has it in either case. */
  lemma LowerMissing(s: string, c: char)
    requires 'a' <= c <= 'z'
    requires c !in s && (c as int - 32) as char !in s
    ensures c !in Lower(s)
  {
    forall i | 0 <= i < |s|
      ensures Lower(s)[i] != c
    {
      assert s[i] in s;
    }
  }

  /** `sub` occurs in `s` starting at offset `i`. */
  predicate OccursAt(s: string, sub: string, i: int) {
    0 <= i <= |s| - |sub| && s[i..i + |sub|] == sub
  }

  /** `s.includes(sub)`: `sub` occurs in `s` at some offset (the empty string occurs everywhere). */
  predicate Contains(s: string, sub: string) {
    exists i | 0 <= i <= |s| - |sub| :: OccursAt(s, sub, i)
  }

  /**
   * A search string with a character the text lacks cannot occur in it; this is how
   * a failed `includes` on a concrete string is shown without trying every offset.
   */
  lemma NotContainsByMissingChar(s: string, sub: string, c: char)
    requires c in sub && c !in s
    ensures !Contains(s, sub)
  {
    var k :| 0 <= k < |sub| && sub[k] == c;
    forall i | 0 <= i <= |s| - |sub|
      ensures !OccursAt(s, sub, i)
    {
      assert s[i + k] in s;
      assert s[i..i + |sub|][k] == s[i + k];
    }
  }

  lemma ContainsPrefix(s: string, sub: string)
    requires |sub| <= |s| && s[..|sub|] == sub
    ensures Contains(s, sub)
  {
    assert OccursAt(s, sub, 0);
  }

  /** Drops the leading run of whitespace: `trimStart`, and what the greedy `\s+` consumes. */
  function TrimStart(s: string): (r: string)
    ensures |r| <= |s| && r == s[|s| - |r|..]
    ensures r == [] || !IsSpace(r[0])
    ensures AllSpace(s[..|s| - |r|])
  {
    if s != [] && IsSpace(s[0]) then
      var t := TrimStart(s[1..]);
      assert s[..|s| - |t|] == [s[0]] + s[1..][..|s[1..]| - |t|];
      t
    else s
  }

  /** Drops the trailing run of whitespace: `trimEnd`. */
  function TrimEnd(s: string): (r: string)
    ensures |r| <= |s| && r == s[..|r|]
    ensures r == [] || !IsSpace(r[|r| - 1])
    ensures AllSpace(s[|r|..])
  {
    if s != [] && IsSpace(s[|s| - 1]) then
      var t := TrimEnd(s[..|s| - 1]);
      assert s[|t|..] == s[..|s| - 1][|t|..] + [s[|s| - 1]];
      t
    else s
  }

  /** `s.trim()`. */
  function Trim(s: string): (r: string)
    ensures r == [] || (!IsSpace(r[0]) && !IsSpace(r[|r| - 1]))
  {
    TrimEnd(TrimStart(s))
  }

  /** A string trims to nothing exactly when it is made of whitespace only. */
  lemma TrimEmptyIffAllSpace(s: string)
    ensures Trim(s) == [] <==> AllSpace(s)
  {
    var t := TrimStart(s);
    if AllSpace(s) {
      assert s + [] == s;
      TrimStartAllSpaces(s, []);
    }
    if Trim(s) == [] {
      assert AllSpace(t[0..]);
      assert s == s[..|s| - |t|] + t;
    }
  }

  /**
   * `s.replace(/\s+/g, '-')`: every maximal run of whitespace becomes a single hyphen.
   * The scan remembers whether the previous character was whitespace, so only the
   * first character of a run writes the hyphen.
   */
  function CollapseSpaces(s: string): string {
    CollapseFrom(s, false)
  }

  /** The replacement of the rest of a text, `inRun` telling whether a run is already open. */
  function CollapseFrom(s: string, inRun: bool): string {
    if s == [] then []
    else if IsSpace(s[0]) then (if inRun then [] else "-") + CollapseFrom(s[1..], true)
    else [s[0]] + CollapseFrom(s[1..], false)
  }

  /** One step of the scan on text starting with `c`. */
  lemma CollapseCons(c: char, t: string, inRun: bool)
    ensures IsSpace(c) ==> CollapseFrom([c] + t, inRun) == (if inRun then [] else "-") + CollapseFrom(t, true)
    ensures !IsSpace(c) ==> CollapseFrom([c] + t, inRun) == [c] + CollapseFrom(t, false)
  {
    var s := [c] + t;
    assert s[0] == c && s[1..] == t;
  }

  /** Whether a run is open does not matter where the text goes on with a non-whitespace character. */
  lemma CollapseFromWord(s: string, inRun: bool)
    requires s == [] || !IsSpace(s[0])
    ensures CollapseFrom(s, inRun) == CollapseFrom(s, false)
  {
  }

  /**
   * The replacement leaves no whitespace behind, never lengthens the text, and adds
   * no upper-case letter (a hyphen is not one).
   */
  lemma CollapseSpacesShape(s: string)
    ensures NoSpace(CollapseSpaces(s))
    ensures NoUpper(s) ==> NoUpper(CollapseSpaces(s))
    ensures |CollapseSpaces(s)| <= |s|
  {
    CollapseLeavesNoSpace(s, false);
    CollapseShorter(s, false);
    if NoUpper(s) {
      CollapseKeepsNoUpper(s, false);
    }
  }

  lemma {:induction false} CollapseLeavesNoSpace(s: string, inRun: bool)
    ensures NoSpace(CollapseFrom(s, inRun))
  {
    if s != [] {
      CollapseLeavesNoSpace(s[1..], IsSpace(s[0]));
      var head := if !IsSpace(s[0]) then [s[0]] else if inRun then [] else "-";
      assert CollapseFrom(s, inRun) == head + CollapseFrom(s[1..], IsSpace(s[0]));
    }
  }

  lemma {:induction false} CollapseShorter(s: string, inRun: bool)
    ensures |CollapseFrom(s, inRun)| <= |s|
  {
    if s != [] {
      CollapseShorter(s[1..], IsSpace(s[0]));
    }
  }

  lemma {:induction false} CollapseKeepsNoUpper(s: string, inRun: bool)
    requires NoUpper(s)
    ensures NoUpper(CollapseFrom(s, inRun))
  {
    if s != [] {
      assert NoUpper(s[1..]) by {
        forall i | 0 <= i < |s[1..]| ensures !IsUpper(s[1..][i]) {
          assert s[1..][i] == s[i + 1];
        }
      }
      CollapseKeepsNoUpper(s[1..], IsSpace(s[0]));
      var head := if !IsSpace(s[0]) then [s[0]] else if inRun then [] else "-";
      assert CollapseFrom(s, inRun) == head + CollapseFrom(s[1..], IsSpace(s[0]));
    }
  }

  /** Text without whitespace passes through the replacement untouched. */
  lemma {:induction false} CollapseNoSpace(s: string)
    requires NoSpace(s)
    ensures CollapseSpaces(s) == s
  {
    if s != [] {
      assert NoSpace(s[1..]) by {
        forall i | 0 <= i < |s[1..]| ensures !IsSpace(s[1..][i]) {
          assert s[1..][i] == s[i + 1];
        }
      }
      CollapseNoSpace(s[1..]);
      assert s == [s[0]] + s[1..];
    }
  }

  /**
   * Whitespace runs never straddle a boundary whose right side starts with a
   * non-whitespace character, so the replacement distributes over such a split.
   */
  lemma {:induction false} CollapseAppend(a: string, b: string, inRun: bool)
    requires b == [] || !IsSpace(b[0])
    ensures CollapseFrom(a + b, inRun) == CollapseFrom(a, inRun) + CollapseSpaces(b)
  {
    if a == [] {
      assert a + b == b;
      CollapseFromWord(b, inRun);
    } else {
      var c, t := a[0], a[1..];
      assert a == [c] + t;
      assert a + b == [c] + (t + b);
      CollapseCons(c, t, inRun);
      CollapseCons(c, t + b, inRun);
      CollapseAppend(t, b, IsSpace(c));
      var head := if !IsSpace(c) then [c] else if inRun then [] else "-";
      var x, y := CollapseFrom(t, IsSpace(c)), CollapseSpaces(b);
      assert head + (x + y) == (head + x) + y;
    }
  }

  /** A word without whitespace is copied as it is, whatever follows it. */
  lemma {:induction false} CollapseWord(w: string, rest: string)
    requires NoSpace(w)
    ensures CollapseSpaces(w + rest) == w + CollapseSpaces(rest)
  {
    if w == [] {
      assert w + rest == rest;
    } else {
      assert NoSpace(w[1..]) by {
        forall i | 0 <= i < |w[1..]| ensures !IsSpace(w[1..][i]) {
          assert w[1..][i] == w[i + 1];
        }
      }
      CollapseWord(w[1..], rest);
      assert w + rest == [w[0]] + (w[1..] + rest);
      CollapseCons(w[0], w[1..] + rest, false);
      assert w == [w[0]] + w[1..];
    }
  }

  /**
   * A run of whitespace of any length, up to a non-whitespace character or the end,
   * becomes exactly one hyphen: `\s+` matches the whole run at once.
   */
  lemma CollapseRun(run: string, rest: string)
    requires run != [] && AllSpace(run)
    requires rest == [] || !IsSpace(rest[0])
    ensures CollapseSpaces(run + rest) == "-" + CollapseSpaces(rest)
  {
    CollapseRunFrom(run, rest, false);
  }

  /** Inside an open run the rest of the run writes nothing; otherwise its first character writes the hyphen. */
  lemma {:induction false} CollapseRunFrom(run: string, rest: string, inRun: bool)
    requires run != [] && AllSpace(run)
    requires rest == [] || !IsSpace(rest[0])
    ensures CollapseFrom(run + rest, inRun) == (if inRun then [] else "-") + CollapseSpaces(rest)
  {
    var c, t := run[0], run[1..];
    assert run + rest == [c] + (t + rest);
    CollapseCons(c, t + rest, inRun);
    if t == [] {
      assert t + rest == rest;
      CollapseFromWord(rest, true);
    } else {
      assert AllSpace(t) by {
        forall i | 0 <= i < |t| ensures IsSpace(t[i]) {
          assert t[i] == run[i + 1];
        }
      }
      CollapseRunFrom(t, rest, true);
      assert CollapseFrom(t + rest, true) == [] + CollapseSpaces(rest);
    }
  }

  lemma {:induction false} TrimStartAllSpaces(run: string, rest: string)
    requires AllSpace(run)
    requires rest == [] || !IsSpace(rest[0])
    ensures TrimStart(run + rest) == rest
    decreases |run|
  {
    if run != [] {
      assert (run + rest)[1..] == run[1..] + rest;
      TrimStartAllSpaces(run[1..], rest);
    } else {
      assert run + rest == rest;
    }
  }
}

=== FILE: wrappers.dfy ===
/** The optional value used where the pages read something that may be absent or unreadable. */
module Wrappers {

  /** `None` stands for a missing or unparseable value (JavaScript's `NaN`, a blob `JSON.parse` rejects). */
  datatype Option<+T> = None | Some(value: T)
}
